=== FILE: README.md ===
# Telegram RSS bot: the content pipeline

The bot polls one RSS/Atom feed and forwards each new item to every chat
that subscribed to it. This project models the pure logic between the
download and the Telegram API in `main.py`:

- the `retry` decorator and its exponential back-off (`Retry`);
- `purge`, which removes configured elements, unwraps tags Telegram's HTML
  does not support and strips every attribute but the one each kept tag may
  carry (`Sanitizer`, over the element tree of `Html`);
- `summarize`, which walks the content tree from its last node backwards,
  cutting one text node at a word boundary and dropping whole nodes until
  the markup fits a length budget, and appends the "read more" string
  (`Summarizer`);
- the segmenter inside `read_last_feed`, which cuts the sanitised content
  at every image into text messages, image messages and captions
  (`Images`, `Segmenter`, `Messages`);
- the skip condition parsed in the constructor and the item loop of
  `read_last_feed` (`Selection`);
- the message assembly of `send_feed`: the header and the "View post"
  button (`Assembler`);
- the date gate of `check_new_feed` (`Gate`);
- the 4096-character chunking of messages to the owner in `log_bug`
  (`Chunking`).

`Strings` and `Wrappers` hold the string search, splitting and `Option`
helpers these share. Where the code as written crashes, loops forever or
computes something its comments and names evidently did not intend, the
model has two definitions: one that follows the code as written, with a
lemma that exhibits the defect on a named input, and a corrected one that
the rest of the model uses (see "## Findings"). An operation that raises
is modelled as `None`.

## Model

| member | source | states |
|---|---|---|
| Retry.RetryCall | main.py:40-77 | At most max(tries, 1) calls; every call before the last raised; the result is the last call's; a raised result means the budget was used up; one sleep between consecutive calls, the k-th lasting delay·backoff^k. |
| Retry.FeedFetchSchedule | main.py:201-204 | Fetching the feed with `@retry(10)` when every attempt fails makes 10 calls and 9 sleeps of 3, 6, …, 768 seconds and re-raises the tenth error. |
| Strings.SplitOnce | main.py:289 | `split(sep, 1)`: the two parts joined by the separator give the string back, the first part holds no separator, and the split fails exactly when the separator is empty or absent. |
| Strings.SplitOnceAt | main.py:289 | A string built as x + sep + y with no separator start in x splits back into exactly x and y. |
| Strings.RFind | main.py:215 | `rfind(c, 0, end)`: the result is -1 or an index below `end` holding `c`, and no later index below `end` holds `c`. |
| Strings.Drop | main.py:173 | Slicing off the first n characters: what is dropped followed by what is kept gives the string back, and the length shrinks by n (or to 0). |
| Strings.Take | main.py:298-305 | `s[:n]`: a prefix of the string, n characters long, or the whole string when it is shorter. |
| Html.Lookup | main.py:196 | `tag[attr]` finds a value exactly when the attribute is present, and the value found is one the element carries. |
| Html.ChildMarkupInParent | main.py:283-287 | An element's markup occurs inside its parent's markup, so the wrapping link's markup can stand in for the image's as the split point. |
| Sanitizer.NoImgInJoined | main.py:84 | The joined whitelist string does not contain "img". |
| Sanitizer.PermittedAttr | main.py:85 | The one attribute a kept tag may carry: `href` for `a`, `src` for `img`, `language` for `pre`, none for any other tag. |
| Sanitizer.WhitelistedAsWritten | main.py:189 | As written, a tag is kept when its name is a substring of the joined whitelist string. |
| Sanitizer.Whitelisted | main.py:181-189 | As intended, a tag is kept exactly when it is one of the eleven listed tags or `img`. |
| Sanitizer.SubstringWhitelistMisjudges | main.py:189 | The substring test on the joined whitelist keeps `p` (it occurs inside "pre") and unwraps `img`, the opposite of the whitelist's intent. |
| Sanitizer.CleanAttrs | main.py:193-198 | A tag without a permitted attribute loses every attribute; a tag with one keeps exactly that attribute when present and is left untouched when it is absent. |
| Sanitizer.CleanNode | main.py:187-198 | Text stays as it is; a whitelisted element stays with its attributes as the walk leaves them (see CleanAttrs) and its children cleaned; any other element is replaced by its cleaned children. The result has only whitelisted elements, each with attributes the walk would leave as they are, and the node's text. |
| Sanitizer.CleanForest | main.py:187-198 | Cleaning a forest leaves only whitelisted elements, each with attributes the walk would leave as they are (the permitted one alone when it is present, none for a tag without one), and keeps its text. |
| Sanitizer.CleanForestAppend | main.py:187-198 | The walk cleans siblings independently: cleaning a concatenation concatenates the cleanings. |
| Sanitizer.CleanFixedPoints | main.py:187-198 | Cleaning leaves a forest unchanged exactly when every element in it is already whitelisted and carries attributes the walk would leave as they are. |
| Sanitizer.CleanIdempotent | main.py:187-198 | Cleaning twice is cleaning once. |
| Sanitizer.RemoveNode | main.py:185-186 | A selected element becomes an empty string; text stays; an unselected element keeps its name and attributes over its children with their selected elements removed. No selected element is left. |
| Sanitizer.RemoveForest | main.py:185-186 | Removal works node by node: each top-level node is replaced by its removal, and no selected element is left anywhere. |
| Sanitizer.RemoveFixedPoints | main.py:185-186 | Removal changes nothing exactly when no element is selected. |
| Sanitizer.Purge | main.py:180-199 | Purging is removal followed by the walk, node by node as RemoveNode and CleanNode state; the purged content has only whitelisted elements, passes the walk unchanged, and has the text of the content with the selected elements removed. |
| Chunking.Chunks | main.py:171-173 | The pieces concatenate to the message, each is non-empty and at most the limit long, and there are just enough of them. |
| Chunking.ChunksFull | main.py:171-173 | Every piece but the last is exactly the limit long. |
| Chunking.ChunkCount | main.py:171-173 | The owner receives ceil(len/4096) messages: the number of pieces is (len + n - 1) div n. |
| Chunking.OwnerChunks | main.py:171-173 | The `while message:` loop sends exactly the chunking of the message: pieces of at most 4096 characters that concatenate to it. |
| Summarizer.CutAtWordBoundary | main.py:214-220 | Cutting a text node at the last space before the cut point removes at least what is needed, and what is kept is a prefix of the node. |
| Summarizer.CutLeaf | main.py:214-220 | The cut keeps a proper prefix of the text node that ends either exactly `need` characters early or just before a space; the corrected search window always removes at least `need` characters. |
| Summarizer.TrimNode | main.py:212-226 | The walk over one node leaves the same node pruned (an empty string, a prefix of its text, or the same tag over pruned children) with a prefix of its text; it ends inside the node exactly when the removed count reaches what is needed, and otherwise the node is gone and its whole markup is counted; the corrected cut removes at least the count. |
| Summarizer.TrimForest | main.py:211-226 | The walk over siblings, last first, prunes each of them and keeps a prefix of their text; when it does not end among them they are all gone and their whole markup is counted; the corrected walk removes at least what it counts. |
| Summarizer.SummaryForest | main.py:206-226 | Content whose markup fits the budget is left alone; otherwise the walk leaves it pruned with a prefix of its text, and the corrected walk brings its markup plus the read-more string within the budget whenever the read-more string fits. |
| Summarizer.Summarize | main.py:206-228 | The summary is the markup of the pruned tree followed by the read-more string; content within the budget is unchanged but for the suffix; otherwise the summary fits the budget. |
| Summarizer.SummarizeAsWritten | main.py:206-228 | As written, the summary is still the markup of a pruned tree followed by read-more, and short content is unchanged but for the suffix. |
| Summarizer.TrimOneLeaf | main.py:213-221 | A content of one text node longer than what must go is cut inside that node, and the count is exactly what must go. |
| Summarizer.SummaryKeepsTags | main.py:206-228 | Tags are never cut: a `<b>` around 4100 characters with no space, summarised to 4096, keeps both tags around its first 4089 characters. |
| Summarizer.PrunedForestStaysOk | main.py:206-228 | What the summary walk leaves of purged content is still purged: cutting text and dropping nodes adds no tag or attribute. |
| Summarizer.SummarizeAsWrittenOverflows | main.py:215 | Searching the space in the wrong window keeps "abcd." for a 3-character budget, where the corrected cut gives "ab.". |
| Summarizer.SummarizeAsWrittenOvercuts | main.py:215 | The same window makes "one two three" with budget 10 lose "two", where the corrected cut keeps "one two~". |
| Images.SiteOf | main.py:283-288 | Each image site records the image's markup and `src`, and the wrapping link's markup and `href` exactly when its parent is an `a`; the link's markup contains the image's. |
| Images.SitesFromDescribes | main.py:273 | The sites found below a run of siblings are one per `img` element among their descendants, in document order, each describing its image and parent. |
| Images.ImageSites | main.py:273 | `find_all('img')`: one well-shaped site per `img` element of the content, in document order, each recording that image's markup, `src` and wrapping link. |
| Segmenter.ImageUnitFor | main.py:284-338 | An image message exists exactly when the image has a `src` and, when linked, the link has an `href`; it carries that `src` and an empty caption, and an "Open image link" button to the `href` exactly when the image is linked. |
| Segmenter.Boundary | main.py:283-287 | The split point is the wrapping link's markup for a linked image and the image's own markup otherwise; either way it contains the image's markup. |
| Segmenter.SplitAll | main.py:281-289 | Splitting at each boundary in turn: pieces and boundaries woven back together give the content, and no piece contains the boundary that ends it. |
| Segmenter.NextImage | main.py:329-339 | An image after the first adds one message: the previous message gains up to 1024 characters of the preceding text, the rest is the new image's caption, and no text is lost. |
| Segmenter.FirstImage | main.py:294-328 | The first image starts the list: the preceding text as 4096-character text messages, then the image message unless text precedes it and nothing follows; it fails only when that image message is needed and cannot be built; no text is lost. |
| Segmenter.Step | main.py:281-339 | One loop pass splits off the piece before the boundary, adds it to the messages' text, and continues with what follows; it succeeds whenever the boundary is found, the image message can be built and (after the first image) there is a message to extend, and then leaves at least one message. |
| Segmenter.Walk | main.py:281-340 | The image loop only shrinks the content still to split, only adds text at the end of the messages, leaves the first-image flag cleared after any image, and after the first image adds one image message per image; it succeeds whenever every boundary is found in turn and every image message can be built (with a message to extend when past the first image). |
| Segmenter.Place | main.py:281-341 | The loop plus `messages[-1]['text'] += content` fails exactly when the loop fails or leaves no message (always without images); otherwise the leftover joins the text of the loop's messages, and their number and image messages stay as the loop left them; it succeeds whenever there is an image, every boundary is found in turn and every image message can be built. |
| Segmenter.WalkKeepsText | main.py:281-339 | After all images the messages' text is the concatenation of the split pieces. |
| Segmenter.WalkAddsImages | main.py:281-339 | After the first image, every image adds its image message, in document order. |
| Segmenter.AppendToLast | main.py:341 | Adding the leftover content to the last message adds it to the text and changes no image message. |
| Segmenter.PlaceKeepsText | main.py:281-341 | Segmenting content with images loses no text: the messages' texts are the content's markup with the boundaries cut out. |
| Segmenter.PlaceKeepsImages | main.py:281-341 | The image messages are the sites' images in document order, except the first when text precedes it and nothing follows. |
| Segmenter.SingleImagePlace | main.py:281-341 | One image inside plain text: 4096-character text messages for what precedes it, then the image message captioned with what follows. |
| Segmenter.Segment | main.py:273-341 | Content without images gives one text message with no keyboard and no image; content with images gives messages whose texts are its markup with the boundaries cut out, and gives them whenever every boundary is found in turn and every image message can be built. |
| Segmenter.Fit | main.py:276-279 | Content whose markup fits 4096 characters is its markup; longer content is the markup of the summary tree followed by read-more, and the corrected summary fits 4096 characters when read-more does. |
| Segmenter.SegmentWithoutImages | main.py:276-279 | Content without images becomes exactly one text message: its markup when that fits in 4096 characters, otherwise the markup of the same tree pruned by the summary walk, followed by read-more, keeping a prefix of its text and fitting in 4096 characters. |
| Segmenter.SetFirstAsWritten | main.py:296 | `messages[0] = m` succeeds exactly on a non-empty list and replaces only its first element. |
| Segmenter.LeadLoopAsWritten | main.py:302-307 | As written, the loop over the leading text returns the messages unchanged when there is no leading text, and it never succeeds with anything else: a message it appends is never returned. |
| Segmenter.LeadLoopNeverEnds | main.py:302-307 | As written, leading text beyond the first 4096 characters keeps `while first_part:` running for any number of rounds. |
| Segmenter.FirstImageAsWritten | main.py:294-328 | As written, the first image fails on the empty message list the loop starts with. |
| Segmenter.StepAsWritten | main.py:281-339 | As written, one pass fails on the first image when the message list is empty, clears the first-image flag when it succeeds, and after the first image is the corrected pass. |
| Segmenter.WalkAsWritten | main.py:281-340 | As written, the image loop fails on any image list from the empty start, and once past the first image it agrees with the corrected loop. |
| Segmenter.SegmentAsWritten | main.py:273-341 | As written, segmentation succeeds exactly on content without images, and then gives one text message with no keyboard. |
| Segmenter.SegmentAsWrittenFailsOnImages | main.py:273-341 | As written, any content with an image fails. |
| Segmenter.SegmentAsWrittenDoublesText | main.py:276-341 | As written, content without images is sent as one message holding its text (markup or summary) twice; corrected, once. |
| Segmenter.SegmentAsWrittenDoublesHi | main.py:276-341 | As written, the content `hi` is sent as `hihi`. |
| Assembler.AddRow | main.py:355-358 | Adding the "View post" row appends it to the message's keyboard, whether or not there was one, and changes nothing else. |
| Assembler.Header | main.py:361-362 | The header is the template, the link and the title with the 34 fixed characters of the format around them. |
| Assembler.Prepend | main.py:363 | The header is put before the message's text; its kind, image and keyboard are kept. |
| Assembler.Assemble | main.py:353-363 | Nothing happens to an empty list; otherwise assembly succeeds exactly when the item has a link and a title, keeps the number, kinds and images of the messages, puts the header before the first text and the "View post" row after the last keyboard, and changes nothing else. |
| Assembler.AssembleUndone | main.py:353-363 | Assembly loses nothing: stripping the header and the last row gives the messages back. |
| Assembler.HeaderParts | main.py:360-361 | The template, link and title sit at fixed offsets inside the header, and the first message's text follows it. |
| Selection.ParseRender | main.py:139-149 | Any rule a configuration string can express is parsed back from its rendering. |
| Selection.RenderParse | main.py:139-149 | Every accepted configuration string is the rendering of the rule parsed from it. |
| Selection.SingleSlashSplits | main.py:142 | Unpacking `split('/')` into two names succeeds exactly when the string holds exactly one `/`. |
| Selection.ParseSkipCondition | main.py:140-149 | `none` gives no rule; any other string is accepted exactly when it holds one `/`, and then the field of the rule is the text before it. |
| Selection.SkipField | main.py:142 | The skip field is unset exactly for the `none` rule. |
| Selection.ContentMessages | main.py:270-341 | Purged content with no image becomes one text message: its markup, or the markup of a pruned tree that is still purged, followed by read-more; with images the texts are the purged markup with the boundaries cut out. |
| Selection.Consider | main.py:252-343 | An item is skipped exactly when it matches the feed rule or the title rule matches its title; it fails exactly under the as-written `none` rule, a missing title, a missing content or a failed segmentation; a taken item carries no message without a content selector and its content's messages with one. |
| Selection.ReadLastFeed | main.py:243-345 | A failed download is a failure; a found item is one of the feed's items and is taken with exactly the messages the item loop builds for it; running off the end means every item was skipped. |
| Selection.FirstUnskipped | main.py:252-266 | The index of the first item the loop does not `continue` past: every earlier item is skipped, and that one (if any) is not. |
| Selection.FirstUnskippedUnique | main.py:252-266 | Every feed has exactly one such index. |
| Selection.ReadLastFeedDecidedAt | main.py:243-345 | The reading is decided by the first item not skipped: that item with its messages or a failure; only when every item is skipped does the loop run off its end. |
| Selection.NoSkipAsWrittenFails | main.py:252-256 | As written, the `none` rule makes every non-empty read fail on its first item. |
| Selection.NoSkipReadsFirst | main.py:252-256 | Corrected, the `none` rule skips nothing and the first item decides the reading. |
| Selection.ContentRuleIgnored | main.py:145-146 | The content-scoped rule is set up but never consulted: reading with it is reading with no rule. |
| Gate.Admit | main.py:410-421 | An item is sent exactly when no date is stored or its date is strictly newer; its date is then stored, otherwise the stored date stays. |
| Gate.AdmitOnce | main.py:410-421 | After an item is admitted its date is stored and the same date is not admitted again. |
| Gate.Replay | main.py:408-422 | Over a run of checks, at most one date per check is sent; with no stored date the first check sends its own date first; a date is stored at the end exactly when one was stored at the start or some check ran. |
| Gate.ReplaySendsIncreasing | main.py:408-421 | Over any run of checks the dates sent strictly increase and exceed the stored start date, and the date stored at the end is the last one sent. |
| Gate.CheckNewFeed | main.py:408-425 | A failed read sends nothing and reschedules; a found item without a date raises; a dated item stores the date the gate decides, and is sent, as its assembled messages, exactly when admitted; as written a feed whose every item is skipped raises, corrected it sends nothing and reschedules. |
| Gate.CheckTwiceSendsOnce | main.py:408-421 | Checking the same reading twice sends nothing the second time and stores nothing new. |
| Gate.ExhaustedStopsChecking | main.py:408-409 | As written, a feed whose items are all skipped ends the periodic check; corrected, the check is rescheduled. |

## Left out

- Telegram delivery (main.py:364-401): sending to chats, removing chats that blocked the bot, turning an empty caption into None. The model stops at the assembled messages.
- The LMDB store: the stored date is a value passed to and returned by the gate.
- `urlopen` and `time.sleep`: an attempt is a function from its index to an outcome, and sleeps are returned as a list of durations.
- The warning logged before each retry (main.py:68-69): logging is output only and changes nothing the model states.
- BeautifulSoup parsing, CSS selection and the re-parse of markup strings: content is a tree of elements and text; a selector is a predicate over a tag's name and attributes; serialisation does not escape entities.
- `dateutil.parse`: an item's date is an integer, or None when it is missing.
- Regular expressions: the title match is an abstract predicate in the configuration.
- `threading.Timer`: the next check is the `rescheduled` flag.
- The command line, configuration loading, BugReporter, the cherrypy server and the `dist` web assets.
- `log_bug` formatting (html.escape, commentjson, traceback text): only the chunking of the final message is modelled.
- `log_bug` calls `purge` on a string slice (main.py:172), which raises at once; the bare `except` logs it, so as written the owner receives no message at all. The model states what the loop was meant to send.
- Type confusions that would raise at once, where the model follows the evidently intended types: `purge` returns a string yet `find_all` and `summarize` are called on its result (main.py:272-278), and `len(content)` is taken as the length of its markup; `tag.replacewith` is misspelt (main.py:190); `tag.name in ...` on text nodes tests None against a string (main.py:189); the constructor reads an undefined `feed_config` (main.py:115).
- Unsupported tags are unwrapped as nodes (their children take their place) rather than replaced by the string of their contents' markup.
- Segmenter.LeadLoopNeverEnds: the as-written loop is modelled with a `fuel` bound, and the lemma shows that it fails however much fuel is given.
- The `else` branch of `if img:` (main.py:290-292): a Tag found by `find_all` is always true, so the branch cannot run and the model has no counterpart for it.
- Segmenter.FirstImage: a first image preceded by text and followed by nothing is dropped (main.py:308 `if content:`); the model keeps this behaviour.
- Sanitizer.CleanAttrs: a tag whose permitted attribute is absent keeps all its attributes (main.py:195); the model keeps this behaviour.
- Caption and message lengths after segmentation are not bounded: the source does not bound them (its own TODO at main.py:348-350).
- Summarizer.SummarizeAsWritten: states no length bound, because the as-written search window can leave the summary over the budget.
- Selection.ContentMessages: with images it states the texts but not the image messages, which Segmenter.PlaceKeepsImages states on the purged markup and its sites.

## Findings

The as-written members below follow the code after the type repairs listed under "## Left out" (`purge` taken to return the tree, `len(content)` taken as its markup length, the whitelist test not reached on text nodes). Read literally, `find_all` on the string `purge` returns (main.py:273) raises before line 276 for every item with content, so these rows describe what the code does once those repairs are made, not the unrepaired program.

| source | as written | input that shows it | evidently intended | confidence | as-written member | corrected member |
|---|---|---|---|---|---|---|
| main.py:189 | `tag.name in SUPPORTED_HTML_TAGS` tests for a substring of the joined whitelist string, and the `img` added to a local copy is never read | a `p` tag (inside "pre") is kept; an `img` tag is unwrapped | keep exactly the listed tags and `img` | high, not executed | Sanitizer.SubstringWhitelistMisjudges | Sanitizer.CleanNode |
| main.py:296, 327 | `messages[0] = …` on the empty list the loop starts with | any content with an image | start the list with the first message | high, not executed | Segmenter.SegmentAsWrittenFailsOnImages | Segmenter.FirstImage |
| main.py:302-307 | `while first_part:` never shortens `first_part` | latent: text of more than 4096 characters before the first image, once `messages[0] = …` (main.py:296) no longer raises on the empty list; as written that line raises first and the item fails | append 4096-character pieces until the text is used up | high (latent), not executed | Segmenter.LeadLoopNeverEnds | Chunking.Chunks |
| main.py:341 | the leftover content, rebound to the message text, is appended also when there is no image | content "hi" without images is sent as "hihi" | append the leftover only after the image loop | high, not executed | Segmenter.SegmentAsWrittenDoublesHi | Segmenter.SegmentWithoutImages |
| main.py:215 | the space is searched in `s[0:offset-removed]`, measured from the start, not before the cut point | "abcd efgh" with budget 3 and "." gives "abcd." | cut at the last space before the cut point | medium, not executed | Summarizer.SummarizeAsWrittenOverflows | Summarizer.Summarize |
| main.py:254 | `self.__skip_field` is read although it is set only when the rule is not `none` | the default `none` rule with any item | `none` skips nothing | high, not executed | Selection.NoSkipAsWrittenFails | Selection.NoSkipReadsFirst |
| main.py:409 | when every item is skipped `read_last_feed` returns a bare None, which cannot be unpacked | a feed whose items all match the feed rule | nothing is sent and the check is rescheduled | high, not executed | Gate.ExhaustedStopsChecking | Gate.CheckNewFeed |

=== FILE: assembler.dfy ===
/** The message-building part of `send_feed` (main.py:353-363): a "View
    post" button row on the last message and the item's header in front of
    the first message's text. Delivery to the chats is not modelled. */
module Assembler {
  import opened Wrappers
  import opened Messages

  /** The header `'<i>%s</i>\n\n<b><a href = "%s">%s</a></b>\n'` filled
      with the "new feed" template, the item's link and its title (main.py:360-361). */
  function Header(template: string, link: string, title: string): (h: string)
    ensures |h| == |template| + |link| + |title| + 34
  {
    "<i>" + template + "</i>\n\n<b><a href = \"" + link + "\">" + title + "</a></b>\n"
  }

  /** Give a message a further row of buttons: the row is appended to the
      existing keyboard, or becomes the whole keyboard when there is none
      (main.py:355-358); the two branches agree once None is the empty keyboard. */
  function AddRow(u: Unit, row: seq<Button>): (r: Unit)
    ensures r.markup == u.markup + [row]
    ensures r.text == u.text && r.TextUnit? == u.TextUnit?
    ensures r.ImageUnit? ==> r.src == u.src
  {
    u.(markup := u.markup + [row])
  }

  /** Put the header in front of a message's text (main.py:363). */
  function Prepend(u: Unit, header: string): (r: Unit)
    ensures r.text == header + u.text
    ensures r.markup == u.markup && r.TextUnit? == u.TextUnit?
    ensures r.ImageUnit? ==> r.src == u.src
  {
    u.(text := header + u.text)
  }

  /** The messages as sent, or None when `feed.link` or `feed.title` is
      missing: the attribute access raises and the outer handler gives up
      on the item (main.py:354-363, 396-397). Nothing happens to an empty
      list. Otherwise the first message gains the header, the last gains the
      "View post" row after its own rows, and every message keeps its kind,
      its image and, apart from those two changes, its text and buttons. */
  function Assemble(units: seq<Unit>, template: string, link: Option<string>, title: Option<string>): (r: Option<seq<Unit>>)
    ensures |units| == 0 ==> r == Some(units)
    ensures |units| > 0 ==> (r.Some? <==> link.Some? && title.Some?)
    ensures r.Some? ==> |r.value| == |units|
    ensures r.Some? ==> forall i :: 0 <= i < |units| ==>
      r.value[i].TextUnit? == units[i].TextUnit? && (units[i].ImageUnit? ==> r.value[i].src == units[i].src)
    ensures r.Some? && |units| > 0 ==>
      && r.value[0].text == Header(template, link.value, title.value) + units[0].text
      && (forall i :: 0 < i < |units| ==> r.value[i].text == units[i].text)
    ensures r.Some? && |units| > 0 ==>
      && r.value[|units| - 1].markup == units[|units| - 1].markup + [[Button(ViewPostLabel, link.value)]]
      && (forall i :: 0 <= i < |units| - 1 ==> r.value[i].markup == units[i].markup)
  {
    if |units| == 0 then Some(units)
    else if link.None? || title.None? then None
    else
      var n := |units|;
      var marked := units[n - 1 := AddRow(units[n - 1], [Button(ViewPostLabel, link.value)])];
      Some(marked[0 := Prepend(marked[0], Header(template, link.value, title.value))])
  }

  /** Undo assembly given the header's length: strip it from the first
      message and drop the last message's final row. */
  function Disassemble(sent: seq<Unit>, headerLen: nat): (r: seq<Unit>)
    ensures |r| == |sent|
  {
    if |sent| == 0 || |sent[0].text| < headerLen || |sent[|sent| - 1].markup| == 0 then sent
    else
      var n := |sent|;
      var last := sent[n - 1];
      var unmarked := sent[n - 1 := last.(markup := last.markup[..|last.markup| - 1])];
      unmarked[0 := unmarked[0].(text := unmarked[0].text[headerLen..])]
  }

  /** Assembly loses nothing: the messages handed in are recovered from the
      messages sent. */
  lemma AssembleUndone(units: seq<Unit>, template: string, link: string, title: string)
    ensures var r := Assemble(units, template, Some(link), Some(title));
      r.Some? && Disassemble(r.value, |Header(template, link, title)|) == units
  {
    var r := Assemble(units, template, Some(link), Some(title)).value;
    var h := Header(template, link, title);
    if |units| > 0 {
      var d := Disassemble(r, |h|);
      var n := |units|;
      assert (h + units[0].text)[|h|..] == units[0].text;
      assert (units[n - 1].markup + [[Button(ViewPostLabel, link)]])[..|units[n - 1].markup|] == units[n - 1].markup;
      forall i | 0 <= i < n
        ensures d[i] == units[i]
      {
      }
    }
  }

  /** The header can be read back: the item's link and title sit in it
      between fixed delimiters, and the message's own text follows it. */
  lemma HeaderParts(template: string, link: string, title: string, text: string)
    ensures var t := Header(template, link, title) + text;
      var a := |template| + 23;
      var b := a + |link| + 2;
      && t[3..3 + |template|] == template
      && t[a..a + |link|] == link
      && t[b..b + |title|] == title
      && t[|Header(template, link, title)|..] == text
  {
    var h := Header(template, link, title);
    var a := |template| + 23;
    var b := a + |link| + 2;
    var p1 := "<i>" + template + "</i>\n\n<b><a href = \"";
    var p2 := p1 + link + "\">";
    assert |p1| == a && |p2| == b;
    assert h == p2 + title + "</a></b>\n";
    assert (h + text)[3..3 + |template|] == p1[3..3 + |template|];
    assert (h + text)[a..a + |link|] == p2[a..a + |link|];
    assert (h + text)[b..b + |title|] == (p2 + title)[b..b + |title|];
  }
}

=== FILE: chunking.dfy ===
/** Slicing a string into pieces Telegram accepts: the owner-report loop of
    `log_bug` (main.py:171-173) and, in the segmenter, the leading text that
    the loop at main.py:296-307 was meant to cut into messages. */
module Chunking {
  import opened Strings

  /** MAX_MSG_LEN (main.py:86). */
  const MaxMsgLen: nat := 4096

  /** Cut `s` into consecutive slices of `n` characters, the last one shorter. */
  function Chunks(s: string, n: nat): (r: seq<string>)
    requires n > 0
    decreases |s|
    ensures Concat(r) == s
    ensures forall i :: 0 <= i < |r| ==> 0 < |r[i]| <= n
    ensures |r| * n - n < |s| <= |r| * n
  {
    if |s| == 0 then []
    else
      var rest := Chunks(Drop(s, n), n);
      var r := [Take(s, n)] + rest;
      assert |r| * n == n + |rest| * n by {
        assert |r| == 1 + |rest|;
      }
      assert r[1..] == rest;
      r
  }

  /** Every chunk but the last is full. */
  lemma {:induction false} ChunksFull(s: string, n: nat, i: nat)
    requires n > 0 && i + 1 < |Chunks(s, n)|
    ensures |Chunks(s, n)[i]| == n
    decreases |s|
  {
    if i > 0 {
      ChunksFull(Drop(s, n), n, i - 1);
    }
  }

  /** There are `ceil(|s| / n)` chunks. */
  lemma ChunkCount(s: string, n: nat)
    requires n > 0
    ensures |Chunks(s, n)| == (|s| + n - 1) / n
  {
    var k := |Chunks(s, n)|;
    DivBetween(|s| + n - 1, n, k);
  }

  lemma DivBetween(a: int, n: nat, k: int)
    requires n > 0 && k * n <= a < k * n + n
    ensures a / n == k
  {
    var q := a / n;
    assert q * n <= a < q * n + n;
    if q < k {
      MulStep(q, k, n);
    } else if q > k {
      MulStep(k, q, n);
    }
  }

  lemma MulStep(x: int, y: int, n: nat)
    requires x < y
    ensures x * n + n <= y * n
  {
    var d := y - x;
    assert y * n == x * n + d * n by {
      assert y == x + d;
    }
    assert d * n >= n by {
      assert d >= 1;
    }
  }

  /** The `while message:` loop of `log_bug`: send `message[:4096]`, keep
      `message[4096:]`, until nothing is left. */
  method OwnerChunks(message: string) returns (sent: seq<string>)
    ensures sent == Chunks(message, MaxMsgLen)
    ensures Concat(sent) == message
    ensures forall i :: 0 <= i < |sent| ==> 0 < |sent[i]| <= MaxMsgLen
  {
    var rest := message;
    sent := [];
    while |rest| > 0
      invariant sent + Chunks(rest, MaxMsgLen) == Chunks(message, MaxMsgLen)
      decreases |rest|
    {
      var piece, left := Take(rest, MaxMsgLen), Drop(rest, MaxMsgLen);
      assert Chunks(rest, MaxMsgLen) == [piece] + Chunks(left, MaxMsgLen);
      AppendAssoc(sent, [piece], Chunks(left, MaxMsgLen));
      sent, rest := sent + [piece], left;
    }
  }
}

=== FILE: gate.dfy ===
/** `check_new_feed` (main.py:408-425): announce the item `read_last_feed`
    chose only when its date is newer than the stored one, and schedule the
    next check. Dates are integers; the key-value store holding the last
    date is the `stored` value passed in and handed back. */
module Gate {
  import opened Wrappers
  import opened Messages
  import opened Assembler
  import opened Selection

  /** Whether to send, and the date stored afterwards. */
  datatype Decision = Decision(send: bool, stored: Option<int>)

  /** The date test (main.py:410-421): with no stored date, or a strictly
      newer item, store the item's date and send it. */
  function Admit(stored: Option<int>, date: int): (d: Decision)
    ensures d.send <==> stored.None? || date > stored.value
    ensures d.send ==> d.stored == Some(date)
    ensures !d.send ==> d.stored == stored
  {
    match stored
    case None => Decision(true, Some(date))
    case Some(last) => if date > last then Decision(true, Some(date)) else Decision(false, stored)
  }

  /** The stored date never goes back, and once an item is admitted the
      same date is never admitted again. */
  lemma AdmitOnce(stored: Option<int>, date: int)
    ensures var d := Admit(stored, date);
      && d.stored.Some?
      && (stored.Some? ==> d.stored.value >= stored.value)
      && !Admit(d.stored, date).send
      && Admit(d.stored, date).stored == d.stored
  {
  }

  /** The dates sent over a run of checks, and the date stored at the end. */
  function Replay(stored: Option<int>, dates: seq<int>): (r: (seq<int>, Option<int>))
    decreases |dates|
    ensures |r.0| <= |dates|
    ensures stored.None? && |dates| > 0 ==> |r.0| > 0 && r.0[0] == dates[0]
    ensures r.1.Some? <==> stored.Some? || |dates| > 0
  {
    if |dates| == 0 then ([], stored)
    else
      var d := Admit(stored, dates[0]);
      var rest := Replay(d.stored, dates[1..]);
      (if d.send then [dates[0]] + rest.0 else rest.0, rest.1)
  }

  /** Over any run of checks, the dates sent strictly increase and exceed
      the date stored at the start, so no item is announced twice; the
      date stored at the end is the last one sent. */
  lemma {:induction false} ReplaySendsIncreasing(stored: Option<int>, dates: seq<int>)
    ensures var r := Replay(stored, dates);
      && (forall i, j :: 0 <= i < j < |r.0| ==> r.0[i] < r.0[j])
      && (stored.Some? ==> forall i :: 0 <= i < |r.0| ==> r.0[i] > stored.value)
      && (|r.0| > 0 ==> r.1 == Some(r.0[|r.0| - 1]))
      && (|r.0| == 0 ==> r.1 == stored)
    decreases |dates|
  {
    if |dates| > 0 {
      var d := Admit(stored, dates[0]);
      ReplaySendsIncreasing(d.stored, dates[1..]);
      var rest := Replay(d.stored, dates[1..]);
      if d.send {
        assert Replay(stored, dates) == ([dates[0]] + rest.0, rest.1);
        ConsIncreasing(dates[0], rest.0);
      } else {
        assert Replay(stored, dates) == rest;
      }
    }
  }

  /** A date below an increasing run of dates extends it at the front. */
  lemma ConsIncreasing(x: int, s: seq<int>)
    requires forall i, j :: 0 <= i < j < |s| ==> s[i] < s[j]
    requires forall i :: 0 <= i < |s| ==> s[i] > x
    ensures var t := [x] + s;
      && (forall i, j :: 0 <= i < j < |t| ==> t[i] < t[j])
      && (forall i :: 0 <= i < |t| ==> t[i] >= x)
      && t[|t| - 1] == if |s| > 0 then s[|s| - 1] else x
  {
    var t := [x] + s;
    assert forall i :: 0 < i < |t| ==> t[i] == s[i - 1];
  }

  /** The outcome of one check: the messages `send_feed` delivers (None
      when nothing is sent, or when it gives up on an item without link or
      title), the stored date, and whether a new check is scheduled. */
  datatype Tick = Tick(sent: Option<seq<Unit>>, stored: Option<int>, rescheduled: bool)

  /** One check (main.py:408-425); None when an exception escapes it, which
      ends the timer thread before it schedules the next check. As written,
      the bare None of a reading that skipped every item cannot be unpacked
      into `feed, messages`. An item whose date is missing raises in both
      readings. `checking` is `self.__check__`. */
  function CheckNewFeed(reading: Reading, stored: Option<int>, template: string, checking: bool, asWritten: bool): (r: Option<Tick>)
    ensures reading.Exhausted? ==> (r.None? <==> asWritten)
    ensures reading.Exhausted? && !asWritten ==> r == Some(Tick(None, stored, checking))
    ensures reading.Failed? ==> r == Some(Tick(None, stored, checking))
    ensures reading.Found? ==> (r.None? <==> reading.item.pubDate.None?)
    ensures reading.Found? && reading.item.pubDate.Some? ==>
      var d := Admit(stored, reading.item.pubDate.value);
      && r.Some? && r.value.stored == d.stored
      && (d.send ==> r.value.sent == Assemble(reading.units, template, reading.item.link, reading.item.title))
      && (!d.send ==> r.value.sent.None?)
    ensures r.Some? ==> r.value.rescheduled == checking
    ensures r.Some? && r.value.sent.Some? ==>
      reading.Found? && Admit(stored, reading.item.pubDate.value).send
      && r.value.sent == Assemble(reading.units, template, reading.item.link, reading.item.title)
  {
    match reading
    case Exhausted => if asWritten then None else Some(Tick(None, stored, checking))
    case Failed => Some(Tick(None, stored, checking))
    case Found(item, units) =>
      match item.pubDate
      case None => None
      case Some(date) =>
        var d := Admit(stored, date);
        var sent := if d.send then Assemble(units, template, item.link, item.title) else None;
        Some(Tick(sent, d.stored, checking))
  }

  /** Running the check again on the same reading sends nothing and leaves
      the stored date alone. */
  lemma CheckTwiceSendsOnce(reading: Reading, stored: Option<int>, template: string, checking: bool, asWritten: bool)
    requires CheckNewFeed(reading, stored, template, checking, asWritten).Some?
    ensures var again := CheckNewFeed(reading, CheckNewFeed(reading, stored, template, checking, asWritten).value.stored, template, checking, asWritten);
      && again.Some? && again.value.sent.None?
      && again.value.stored == CheckNewFeed(reading, stored, template, checking, asWritten).value.stored
  {
    if reading.Found? {
      AdmitOnce(stored, reading.item.pubDate.value);
    }
  }

  /** As written, a feed whose every item is skipped stops the periodic
      check for good; as intended, the check is rescheduled. */
  lemma ExhaustedStopsChecking(stored: Option<int>, template: string)
    ensures CheckNewFeed(Exhausted, stored, template, true, true).None?
    ensures CheckNewFeed(Exhausted, stored, template, true, false) == Some(Tick(None, stored, true))
  {
  }
}

=== FILE: html.dfy ===
/** The parsed markup tree the pipeline manipulates through BeautifulSoup:
    text leaves and elements with an ordered attribute dictionary and
    children, together with `str(tag)` serialisation and `.text`. */
module Html {
  import opened Wrappers
  import opened Strings

  datatype Attr = Attr(key: string, value: string)

  datatype Node =
    | Text(text: string)
    | Element(name: string, attrs: seq<Attr>, children: seq<Node>)

  /** `key in tag.attrs`. */
  predicate HasAttr(attrs: seq<Attr>, key: string)
  {
    exists i :: 0 <= i < |attrs| && attrs[i].key == key
  }

  /** `tag[key]`, None where Python raises KeyError. A dictionary has each
      key once; the model reads the first entry with that key. */
  function Lookup(attrs: seq<Attr>, key: string): (r: Option<string>)
    ensures r.Some? <==> HasAttr(attrs, key)
    ensures r.Some? ==> exists i :: 0 <= i < |attrs| && attrs[i] == Attr(key, r.value)
  {
    if |attrs| == 0 then None
    else if attrs[0].key == key then Some(attrs[0].value)
    else
      var r := Lookup(attrs[1..], key);
      assert r.Some? ==> exists i :: 0 <= i < |attrs| && attrs[i] == Attr(key, r.value) by {
        if r.Some? {
          var i :| 0 <= i < |attrs[1..]| && attrs[1..][i] == Attr(key, r.value);
          assert attrs[i + 1] == Attr(key, r.value);
        }
      }
      assert HasAttr(attrs, key) ==> attrs[0].key == key || HasAttr(attrs[1..], key) by {
        if HasAttr(attrs, key) && attrs[0].key != key {
          var i :| 0 <= i < |attrs| && attrs[i].key == key;
          assert attrs[1..][i - 1].key == key;
        }
      }
      r
  }

  /** Elements the serialiser writes as `<name .../>` when they have no children. */
  const VoidTags: set<string> :=
    {"area", "base", "br", "col", "embed", "hr", "img", "input", "link", "meta",
     "param", "source", "track", "wbr"}

  function SerializeAttrs(attrs: seq<Attr>): string
  {
    if |attrs| == 0 then ""
    else " " + attrs[0].key + "=\"" + attrs[0].value + "\"" + SerializeAttrs(attrs[1..])
  }

  /** `str(node)`. Entity escaping is not modelled. */
  function Serialize(n: Node): string
    decreases n
  {
    match n
    case Text(t) => t
    case Element(name, attrs, kids) =>
      if name in VoidTags && |kids| == 0 then "<" + name + SerializeAttrs(attrs) + "/>"
      else "<" + name + SerializeAttrs(attrs) + ">" + SerializeForest(kids) + "</" + name + ">"
  }

  /** `''.join(str(c) for c in nodes)`. */
  function SerializeForest(ns: seq<Node>): string
    decreases ns
  {
    if |ns| == 0 then "" else Serialize(ns[0]) + SerializeForest(ns[1..])
  }

  lemma SerializeForestSplit(ns: seq<Node>, i: nat)
    requires i < |ns|
    ensures SerializeForest(ns) == SerializeForest(ns[..i]) + Serialize(ns[i]) + SerializeForest(ns[i + 1..])
  {
    var tail := ns[i..];
    assert ns == ns[..i] + tail;
    assert tail[1..] == ns[i + 1..];
    SerializeForestAppend(ns[..i], tail);
    AppendAssoc(SerializeForest(ns[..i]), Serialize(ns[i]), SerializeForest(ns[i + 1..]));
  }

  lemma {:induction false} SerializeForestAppend(a: seq<Node>, b: seq<Node>)
    ensures SerializeForest(a + b) == SerializeForest(a) + SerializeForest(b)
  {
    if |a| == 0 {
      assert a + b == b;
    } else {
      assert (a + b)[1..] == a[1..] + b;
      SerializeForestAppend(a[1..], b);
    }
  }

  /** Markup and text of a forest with one more node at its end. */
  lemma ForestSnoc(init: seq<Node>, x: Node)
    ensures SerializeForest(init + [x]) == SerializeForest(init) + Serialize(x)
    ensures TextOfForest(init + [x]) == TextOfForest(init) + TextOf(x)
  {
    SerializeForestAppend(init, [x]);
    TextOfForestAppend(init, [x]);
    assert [x][1..] == [];
  }

  /** An element's markup is its tag around its children's markup, so it
      grows and shrinks with them when the number of children stays. */
  lemma ShellLength(name: string, attrs: seq<Attr>, a: seq<Node>, b: seq<Node>)
    requires |a| == |b|
    ensures |Serialize(Element(name, attrs, a))| + |SerializeForest(b)| ==
      |Serialize(Element(name, attrs, b))| + |SerializeForest(a)|
  {
  }

  /** A child's markup occurs inside its parent's markup. */
  lemma ChildMarkupInParent(parent: Node, i: nat)
    requires parent.Element? && i < |parent.children|
    ensures Contains(Serialize(parent), Serialize(parent.children[i]))
  {
    var kids := parent.children;
    SerializeForestSplit(kids, i);
    assert |kids| > 0;
    var pre := "<" + parent.name + SerializeAttrs(parent.attrs) + ">" + SerializeForest(kids[..i]);
    var post := SerializeForest(kids[i + 1..]) + "</" + parent.name + ">";
    assert Serialize(parent) == pre + Serialize(kids[i]) + post;
    ContainsInMiddle(pre, Serialize(kids[i]), post);
  }

  /** `.text`: the concatenated text leaves. */
  function TextOf(n: Node): string
    decreases n
  {
    match n
    case Text(t) => t
    case Element(_, _, kids) => TextOfForest(kids)
  }

  function TextOfForest(ns: seq<Node>): string
    decreases ns
  {
    if |ns| == 0 then "" else TextOf(ns[0]) + TextOfForest(ns[1..])
  }

  lemma {:induction false} TextOfForestAppend(a: seq<Node>, b: seq<Node>)
    ensures TextOfForest(a + b) == TextOfForest(a) + TextOfForest(b)
  {
    if |a| == 0 {
      assert a + b == b;
    } else {
      assert (a + b)[1..] == a[1..] + b;
      TextOfForestAppend(a[1..], b);
    }
  }
}

=== FILE: images.dfy ===
/** `content.find_all('img')` on the sanitised tree together with what the
    segmenter asks of each image (main.py:281-289): its markup `str(img)`,
    `img['src']`, and, when its parent is an `<a>`, the parent's markup
    `str(img.parent)` and `img.parent['href']`. */
module Images {
  import opened Wrappers
  import opened Strings
  import opened Html

  datatype Wrapper = Wrapper(markup: string, href: Option<string>)

  datatype ImageSite = ImageSite(markup: string, src: Option<string>, wrapper: Option<Wrapper>)

  /** A site's markup is an `img` tag; a wrapping link's markup is an `a`
      tag that contains the image's markup, so splitting on it consumes the image. */
  predicate WellShaped(site: ImageSite)
  {
    && "<img" <= site.markup
    && (site.wrapper.Some? ==> "<a" <= site.wrapper.value.markup && Contains(site.wrapper.value.markup, site.markup))
  }

  /** What the segmenter reads off an image element: its markup and `src`,
      and the wrapping link's markup and `href` exactly when its parent is
      an `<a>`. */
  predicate SiteDescribes(site: ImageSite, parent: Option<Node>, img: Node)
  {
    && img.Element?
    && site.markup == Serialize(img)
    && site.src == Lookup(img.attrs, "src")
    && (site.wrapper.Some? <==> parent.Some? && parent.value.Element? && parent.value.name == "a")
    && (site.wrapper.Some? ==> site.wrapper.value == Wrapper(Serialize(parent.value), Lookup(parent.value.attrs, "href")))
  }

  /** Every node below `kids` in document order (each before its children,
      its children before its next sibling), paired with its parent. */
  function Descendants(parent: Option<Node>, kids: seq<Node>): seq<(Option<Node>, Node)>
    decreases kids
  {
    if |kids| == 0 then []
    else
      var below := if kids[0].Element? then Descendants(Some(kids[0]), kids[0].children) else [];
      [(parent, kids[0])] + below + Descendants(parent, kids[1..])
  }

  /** `find_all('img')`: the `img` elements among the descendants. */
  function Imgs(ds: seq<(Option<Node>, Node)>): seq<(Option<Node>, Node)>
  {
    if |ds| == 0 then []
    else (if ds[0].1.Element? && ds[0].1.name == "img" then [ds[0]] else []) + Imgs(ds[1..])
  }

  /** One site per image, in the same order, each describing its image. */
  predicate DescribesAll(sites: seq<ImageSite>, imgs: seq<(Option<Node>, Node)>)
  {
    |sites| == |imgs| && forall k :: 0 <= k < |sites| ==> SiteDescribes(sites[k], imgs[k].0, imgs[k].1)
  }

  lemma {:induction false} ImgsAppend(a: seq<(Option<Node>, Node)>, b: seq<(Option<Node>, Node)>)
    ensures Imgs(a + b) == Imgs(a) + Imgs(b)
  {
    if |a| == 0 {
      assert a + b == b;
    } else {
      assert (a + b)[1..] == a[1..] + b;
      ImgsAppend(a[1..], b);
    }
  }

  lemma DescribesAllAppend(s1: seq<ImageSite>, i1: seq<(Option<Node>, Node)>, s2: seq<ImageSite>, i2: seq<(Option<Node>, Node)>)
    requires DescribesAll(s1, i1) && DescribesAll(s2, i2)
    ensures DescribesAll(s1 + s2, i1 + i2)
  {
    forall k | 0 <= k < |s1 + s2|
      ensures SiteDescribes((s1 + s2)[k], (i1 + i2)[k].0, (i1 + i2)[k].1)
    {
      if k < |s1| {
        assert (s1 + s2)[k] == s1[k] && (i1 + i2)[k] == i1[k];
      } else {
        assert (s1 + s2)[k] == s2[k - |s1|] && (i1 + i2)[k] == i2[k - |s1|];
      }
    }
  }

  /** The descendants of `kids[i..]`: `kids[i]`, what is below it, then the rest. */
  lemma DescendantsFrom(parent: Option<Node>, kids: seq<Node>, i: nat)
    requires i < |kids|
    ensures Descendants(parent, kids[i..]) ==
      [(parent, kids[i])]
      + (if kids[i].Element? then Descendants(Some(kids[i]), kids[i].children) else [])
      + Descendants(parent, kids[i + 1..])
  {
    assert kids[i..][0] == kids[i] && kids[i..][1..] == kids[i + 1..];
  }

  /** The sites of `kids[i..]` are those of its images, in document order. */
  lemma {:induction false} SitesFromDescribes(parent: Option<Node>, kids: seq<Node>, i: nat)
    requires parent.Some? ==> parent.value.Element? && parent.value.children == kids
    requires i <= |kids|
    ensures DescribesAll(SitesFrom(parent, kids, i), Imgs(Descendants(parent, kids[i..])))
    decreases kids, |kids| - i
  {
    if i < |kids| {
      var n := kids[i];
      var here := if n.Element? && n.name == "img" then [SiteOf(parent, kids, i)] else [];
      var below := if n.Element? then SitesFrom(Some(n), n.children, 0) else [];
      var dsBelow := if n.Element? then Descendants(Some(n), n.children) else [];
      DescendantsFrom(parent, kids, i);
      ImgsAppend([(parent, n)] + dsBelow, Descendants(parent, kids[i + 1..]));
      ImgsAppend([(parent, n)], dsBelow);
      assert DescribesAll(here, Imgs([(parent, n)]));
      if n.Element? {
        SitesFromDescribes(Some(n), n.children, 0);
        assert n.children[0..] == n.children;
      }
      assert DescribesAll(below, Imgs(dsBelow));
      SitesFromDescribes(parent, kids, i + 1);
      DescribesAllAppend(here, Imgs([(parent, n)]), below, Imgs(dsBelow));
      DescribesAllAppend(here + below, Imgs([(parent, n)]) + Imgs(dsBelow), SitesFrom(parent, kids, i + 1), Imgs(Descendants(parent, kids[i + 1..])));
    }
  }

  /** The sites of `kids[i..]` and everything below them, in document order;
      `parent` is the element whose children `kids` are (None at top level). */
  function SitesFrom(parent: Option<Node>, kids: seq<Node>, i: nat): (r: seq<ImageSite>)
    requires parent.Some? ==> parent.value.Element? && parent.value.children == kids
    requires i <= |kids|
    decreases kids, |kids| - i
    ensures forall k :: 0 <= k < |r| ==> WellShaped(r[k])
  {
    if i == |kids| then []
    else
      var n := kids[i];
      var here := if n.Element? && n.name == "img" then [SiteOf(parent, kids, i)] else [];
      var below := if n.Element? then SitesFrom(Some(n), n.children, 0) else [];
      here + below + SitesFrom(parent, kids, i + 1)
  }

  function SiteOf(parent: Option<Node>, kids: seq<Node>, i: nat): (r: ImageSite)
    requires parent.Some? ==> parent.value.Element? && parent.value.children == kids
    requires i < |kids| && kids[i].Element? && kids[i].name == "img"
    ensures WellShaped(r)
    ensures SiteDescribes(r, parent, kids[i])
  {
    var img := kids[i];
    var wrapper :=
      if parent.Some? && parent.value.name == "a" then
        ChildMarkupInParent(parent.value, i);
        Some(Wrapper(Serialize(parent.value), Lookup(parent.value.attrs, "href")))
      else None;
    ImageSite(Serialize(img), Lookup(img.attrs, "src"), wrapper)
  }

  /** `find_all('img')` on the whole content: one site per image element,
      in document order, each describing its image. */
  function ImageSites(content: seq<Node>): (r: seq<ImageSite>)
    ensures forall k :: 0 <= k < |r| ==> WellShaped(r[k])
    ensures DescribesAll(r, Imgs(Descendants(None, content)))
  {
    SitesFromDescribes(None, content, 0);
    assert content[0..] == content;
    SitesFrom(None, content, 0)
  }
}

=== FILE: messages.dfy ===
/** The message dictionaries built by `read_last_feed` and `send_feed`:
    `{'type': 'text'|'image', 'text', 'src', 'markup'}`, where `markup` is a
    list of rows of inline buttons. `None` and `[]` are both falsy wherever
    the source tests `markup`, so an empty list stands for both. */
module Messages {
  import opened Strings

  datatype Button = Button(text: string, url: string)

  type Keyboard = seq<seq<Button>>

  datatype Unit =
    | TextUnit(text: string, markup: Keyboard)
    | ImageUnit(src: string, text: string, markup: Keyboard)

  const OpenImageLabel: string := "Open image link"
  const ViewPostLabel: string := "View post"

  /** The message texts and captions in order. */
  function Texts(units: seq<Unit>): string
  {
    if |units| == 0 then "" else units[0].text + Texts(units[1..])
  }

  lemma {:induction false} TextsAppend(a: seq<Unit>, b: seq<Unit>)
    ensures Texts(a + b) == Texts(a) + Texts(b)
  {
    if |a| == 0 {
      assert a + b == b;
    } else {
      assert (a + b)[1..] == a[1..] + b;
      TextsAppend(a[1..], b);
    }
  }

  /** One text message per chunk. */
  function TextUnits(chunks: seq<string>): (r: seq<Unit>)
    ensures |r| == |chunks|
    ensures forall i :: 0 <= i < |r| ==> r[i] == TextUnit(chunks[i], [])
  {
    if |chunks| == 0 then [] else [TextUnit(chunks[0], [])] + TextUnits(chunks[1..])
  }

  lemma {:induction false} TextsOfTextUnits(chunks: seq<string>)
    ensures Texts(TextUnits(chunks)) == Concat(chunks)
  {
    if |chunks| > 0 {
      TextsOfTextUnits(chunks[1..]);
      assert TextUnits(chunks)[1..] == TextUnits(chunks[1..]);
    }
  }

  /** The image messages in order, captions blanked. */
  function ImageMessages(units: seq<Unit>): (r: seq<Unit>)
    ensures forall i :: 0 <= i < |r| ==> r[i].ImageUnit? && r[i].text == ""
  {
    if |units| == 0 then []
    else (if units[0].ImageUnit? then [units[0].(text := "")] else []) + ImageMessages(units[1..])
  }

  lemma {:induction false} ImageMessagesAppend(a: seq<Unit>, b: seq<Unit>)
    ensures ImageMessages(a + b) == ImageMessages(a) + ImageMessages(b)
  {
    if |a| == 0 {
      assert a + b == b;
    } else {
      assert (a + b)[1..] == a[1..] + b;
      ImageMessagesAppend(a[1..], b);
    }
  }

  lemma {:induction false} NoImageMessagesInTextUnits(chunks: seq<string>)
    ensures ImageMessages(TextUnits(chunks)) == []
  {
    if |chunks| > 0 {
      NoImageMessagesInTextUnits(chunks[1..]);
      assert TextUnits(chunks)[1..] == TextUnits(chunks[1..]);
    }
  }
}

=== FILE: retry.dfy ===
/** The `retry` decorator (main.py:40-77): call a function up to `tries`
    times, sleeping between failed attempts with exponential backoff. The
    wrapped call is an oracle `attempt(k)` giving the outcome of the k-th
    call; sleeps are recorded rather than performed. */
module Retry {

  /** What one call of the wrapped function did. */
  datatype Outcome<+T, +E> = Returned(value: T) | Raised(error: E)

  /** `get_feeds` is decorated with `@retry(10)`; delay and backoff keep the
      decorator's defaults. */
  const FeedTries: int := 10
  const DefaultDelay: int := 3
  const DefaultBackoff: int := 2

  function Pow(b: int, k: nat): int
  {
    if k == 0 then 1 else b * Pow(b, k - 1)
  }

  /** How many calls the decorator can make: `tries` of them, but always at
      least the final unguarded call. */
  function Budget(tries: int): (n: nat)
    ensures n >= 1 && n >= tries
  {
    if tries > 1 then tries else 1
  }

  lemma NextDelay(delay: int, backoff: int, k: nat)
    ensures delay * Pow(backoff, k) * backoff == delay * Pow(backoff, k + 1)
  {
    var p := Pow(backoff, k);
    assert Pow(backoff, k + 1) == backoff * p;
    assert delay * p * backoff == delay * (p * backoff);
  }

  method RetryCall<T, E>(attempt: nat -> Outcome<T, E>, tries: int, delay: int, backoff: int)
    returns (calls: nat, sleeps: seq<int>, result: Outcome<T, E>)
    ensures 1 <= calls <= Budget(tries)
    ensures forall k :: 0 <= k < calls - 1 ==> attempt(k).Raised?
    ensures result == attempt(calls - 1)
    ensures result.Raised? ==> calls == Budget(tries)
    ensures |sleeps| == calls - 1
    ensures forall k :: 0 <= k < |sleeps| ==> sleeps[k] == delay * Pow(backoff, k)
  {
    var mtries, mdelay := tries, delay;
    calls, sleeps := 0, [];
    while mtries > 1
      invariant calls == |sleeps|
      invariant mtries >= 1 ==> calls + mtries == Budget(tries)
      invariant mtries < 1 ==> calls == 0 && mtries == tries
      invariant mdelay == delay * Pow(backoff, calls)
      invariant forall k :: 0 <= k < calls ==> attempt(k).Raised?
      invariant forall k :: 0 <= k < |sleeps| ==> sleeps[k] == delay * Pow(backoff, k)
      decreases mtries
    {
      var o := attempt(calls);
      calls := calls + 1;
      if o.Returned? {
        return calls, sleeps, o;
      }
      sleeps := sleeps + [mdelay];
      mtries := mtries - 1;
      NextDelay(delay, backoff, calls - 1);
      mdelay := mdelay * backoff;
    }
    result := attempt(calls);
    calls := calls + 1;
  }

  /** A fetch that never succeeds is called ten times with nine sleeps of
      3, 6, 12, ... seconds, and the tenth call's error is what the caller sees. */
  method FeedFetchSchedule<E>(errors: nat -> E)
    returns (calls: nat, sleeps: seq<int>, result: Outcome<string, E>)
    ensures calls == 10 && |sleeps| == 9
    ensures sleeps[0] == 3 && sleeps[1] == 6 && sleeps[8] == 768
    ensures result == Raised(errors(9))
  {
    calls, sleeps, result := RetryCall(k => Raised(errors(k)), FeedTries, DefaultDelay, DefaultBackoff);
    assert Pow(2, 8) == 256 by {
      assert Pow(2, 1) == 2;
      assert Pow(2, 2) == 4;
      assert Pow(2, 4) == 2 * 2 * Pow(2, 2);
    }
  }
}

=== FILE: sanitizer.dfy ===
/** `BotHandler.purge` (main.py:180-199): delete the elements a configured
    "remove" selector matches, unwrap every tag Telegram does not support and
    cut the attributes of the supported ones down to the one it accepts. */
module Sanitizer {
  import opened Wrappers
  import opened Strings
  import opened Html

  /** SUPPORTED_HTML_TAGS before joining (main.py:84). */
  const SupportedTags: seq<string> :=
    ["a", "b", "strong", "i", "em", "code", "pre", "s", "strike", "del", "u"]

  /** SUPPORTED_HTML_TAGS itself: `'|'.join` of the tags above. */
  const SupportedTagsJoined: string := "a|b|strong|i|em|code|pre|s|strike|del|u"

  /** SUPPORTED_TAG_ATTRS (main.py:85): the one attribute a tag may keep. */
  function PermittedAttr(name: string): Option<string>
  {
    if name == "a" then Some("href")
    else if name == "img" then Some("src")
    else if name == "pre" then Some("language")
    else None
  }

  /** The whitelist test as written (main.py:189): `name in` the joined
      string is a substring test, and `img`, appended only to the unused
      local `tags` (main.py:181-183), is not in it. */
  predicate WhitelistedAsWritten(name: string)
  {
    Contains(SupportedTagsJoined, name)
  }

  /** The whitelist as intended: the supported tags plus `img`, since every
      caller uses the default `images=True`. */
  predicate Whitelisted(name: string)
  {
    name in SupportedTags || name == "img"
  }

  /** The only `g` of the joined string ends `strong`, so `img` is not in it. */
  lemma NoImgInJoined(joined: string)
    requires joined == "a|b|strong|i|em|code|pre|s|strike|del|u"
    ensures !Contains(joined, "img")
  {
    forall i | 0 <= i <= |joined|
      ensures !OccursAt(joined, "img", i)
    {
      if i + 3 > |joined| {
      } else if joined[i + 2] == 'g' {
        assert i == 7;
        assert joined[i] == 'o';
      } else {
        assert joined[i..i + 3][2] != 'g';
      }
    }
  }

  /** The substring test admits `p` (inside `pre`) and rejects `img`. */
  lemma SubstringWhitelistMisjudges()
    ensures WhitelistedAsWritten("p") && !Whitelisted("p")
    ensures !WhitelistedAsWritten("img") && Whitelisted("img")
  {
    var joined := SupportedTagsJoined;
    assert joined[21..22] == "p";
    assert OccursAt(joined, "p", 21);
    NoImgInJoined(joined);
  }

  /** Attributes after the walk (main.py:193-198): the permitted one alone
      when present, untouched when the tag has a permitted attribute that is
      absent, none for the other whitelisted tags. */
  function CleanAttrs(name: string, attrs: seq<Attr>): (r: seq<Attr>)
    ensures PermittedAttr(name).None? ==> r == []
    ensures PermittedAttr(name).Some? && HasAttr(attrs, PermittedAttr(name).value) ==>
      r == [Attr(PermittedAttr(name).value, Lookup(attrs, PermittedAttr(name).value).value)]
    ensures PermittedAttr(name).Some? && !HasAttr(attrs, PermittedAttr(name).value) ==> r == attrs
  {
    match PermittedAttr(name)
    case None => []
    case Some(k) =>
      match Lookup(attrs, k)
      case Some(v) => [Attr(k, v)]
      case None => attrs
  }

  /** The attribute shape a supported tag may have after the walk. */
  predicate AttrsClean(name: string, attrs: seq<Attr>)
  {
    match PermittedAttr(name)
    case None => attrs == []
    case Some(k) => !HasAttr(attrs, k) || (|attrs| == 1 && attrs[0].key == k)
  }

  /** Every element is whitelisted, and its attributes are ones the walk
      leaves as they are: the permitted one alone when it is present, none
      for a tag without a permitted attribute. */
  predicate NodeOk(n: Node)
    decreases n
  {
    match n
    case Text(_) => true
    case Element(name, attrs, kids) =>
      Whitelisted(name) && AttrsClean(name, attrs) &&
      forall i :: 0 <= i < |kids| ==> NodeOk(kids[i])
  }

  predicate ForestOk(ns: seq<Node>)
  {
    forall i :: 0 <= i < |ns| ==> NodeOk(ns[i])
  }

  /** The descendant walk: text stays, whitelisted tags stay with cleaned
      attributes over cleaned children, other tags are replaced by their
      (cleaned) contents. */
  function CleanNode(n: Node): (r: seq<Node>)
    decreases n
    ensures ForestOk(r)
    ensures TextOfForest(r) == TextOf(n)
    ensures n.Text? ==> r == [n]
    ensures n.Element? && Whitelisted(n.name) ==>
      r == [Element(n.name, CleanAttrs(n.name, n.attrs), CleanForest(n.children))]
    ensures n.Element? && !Whitelisted(n.name) ==> r == CleanForest(n.children)
  {
    match n
    case Text(t) => [n]
    case Element(name, attrs, kids) =>
      if Whitelisted(name) then
        var e := Element(name, CleanAttrs(name, attrs), CleanForest(kids));
        assert TextOfForest([e]) == TextOf(e);
        [e]
      else CleanForest(kids)
  }

  function CleanForest(ns: seq<Node>): (r: seq<Node>)
    decreases ns
    ensures ForestOk(r)
    ensures TextOfForest(r) == TextOfForest(ns)
  {
    if |ns| == 0 then []
    else
      var head, tail := CleanNode(ns[0]), CleanForest(ns[1..]);
      TextOfForestAppend(head, tail);
      head + tail
  }

  /** The walk treats siblings independently. */
  lemma {:induction false} CleanForestAppend(a: seq<Node>, b: seq<Node>)
    ensures CleanForest(a + b) == CleanForest(a) + CleanForest(b)
    decreases a
  {
    if |a| == 0 {
      assert a + b == b;
    } else {
      assert (a + b)[0] == a[0] && (a + b)[1..] == a[1..] + b;
      CleanForestAppend(a[1..], b);
      AppendAssoc(CleanNode(a[0]), CleanForest(a[1..]), CleanForest(b));
    }
  }

  lemma CleanAttrsFixesClean(name: string, attrs: seq<Attr>)
    requires AttrsClean(name, attrs)
    ensures CleanAttrs(name, attrs) == attrs
  {
  }

  /** The walk changes nothing in a forest that already passes it, so it is
      idempotent: NodeOk holds exactly of the walk's fixed points. */
  lemma {:induction false} CleanNodeFixesOk(n: Node)
    requires NodeOk(n)
    ensures CleanNode(n) == [n]
    decreases n
  {
    match n
    case Text(_) =>
    case Element(name, attrs, kids) =>
      CleanAttrsFixesClean(name, attrs);
      CleanForestFixesOk(kids);
  }

  lemma {:induction false} CleanForestFixesOk(ns: seq<Node>)
    requires ForestOk(ns)
    ensures CleanForest(ns) == ns
    decreases ns
  {
    if |ns| > 0 {
      CleanNodeFixesOk(ns[0]);
      CleanForestFixesOk(ns[1..]);
      assert [ns[0]] + ns[1..] == ns;
    }
  }

  lemma CleanIdempotent(ns: seq<Node>)
    ensures CleanForest(CleanForest(ns)) == CleanForest(ns)
  {
    CleanForestFixesOk(CleanForest(ns));
  }

  lemma CleanFixedPoints(ns: seq<Node>)
    ensures CleanForest(ns) == ns <==> ForestOk(ns)
  {
    if ForestOk(ns) {
      CleanForestFixesOk(ns);
    }
  }

  /** No element left in the tree is one the remove selector matches. A CSS
      selector is modelled as a test on the tag name and attributes. */
  predicate NodeUnmatched(n: Node, matches: (string, seq<Attr>) -> bool)
    decreases n
  {
    match n
    case Text(_) => true
    case Element(name, attrs, kids) =>
      !matches(name, attrs) && forall i :: 0 <= i < |kids| ==> NodeUnmatched(kids[i], matches)
  }

  predicate ForestUnmatched(ns: seq<Node>, matches: (string, seq<Attr>) -> bool)
  {
    forall i :: 0 <= i < |ns| ==> NodeUnmatched(ns[i], matches)
  }

  /** `elem.replace_with('')` for every match of the remove selector
      (main.py:185-186): a matched element and its subtree become an empty
      string; text stays; an unmatched element keeps its name and attributes
      over its children with their matches removed. */
  function RemoveNode(n: Node, matches: (string, seq<Attr>) -> bool): (r: Node)
    decreases n
    ensures NodeUnmatched(r, matches)
    ensures n.Text? ==> r == n
    ensures n.Element? && matches(n.name, n.attrs) ==> r == Text("")
    ensures n.Element? && !matches(n.name, n.attrs) ==>
      r.Element? && r.name == n.name && r.attrs == n.attrs && r.children == RemoveForest(n.children, matches)
  {
    match n
    case Text(_) => n
    case Element(name, attrs, kids) =>
      if matches(name, attrs) then Text("")
      else Element(name, attrs, RemoveForest(kids, matches))
  }

  function RemoveForest(ns: seq<Node>, matches: (string, seq<Attr>) -> bool): (r: seq<Node>)
    decreases ns
    ensures |r| == |ns|
    ensures forall i :: 0 <= i < |ns| ==> r[i] == RemoveNode(ns[i], matches)
    ensures ForestUnmatched(r, matches)
  {
    if |ns| == 0 then []
    else [RemoveNode(ns[0], matches)] + RemoveForest(ns[1..], matches)
  }

  /** Removal leaves a tree with no matching element exactly as it was. */
  lemma {:induction false} RemoveNodeKeepsUnmatched(n: Node, matches: (string, seq<Attr>) -> bool)
    requires NodeUnmatched(n, matches)
    ensures RemoveNode(n, matches) == n
    decreases n
  {
    match n
    case Text(_) =>
    case Element(name, attrs, kids) =>
      RemoveForestKeepsUnmatched(kids, matches);
  }

  lemma {:induction false} RemoveForestKeepsUnmatched(ns: seq<Node>, matches: (string, seq<Attr>) -> bool)
    requires ForestUnmatched(ns, matches)
    ensures RemoveForest(ns, matches) == ns
    decreases ns
  {
    if |ns| > 0 {
      RemoveNodeKeepsUnmatched(ns[0], matches);
      RemoveForestKeepsUnmatched(ns[1..], matches);
      assert [ns[0]] + ns[1..] == ns;
    }
  }

  lemma RemoveFixedPoints(ns: seq<Node>, matches: (string, seq<Attr>) -> bool)
    ensures RemoveForest(ns, matches) == ns <==> ForestUnmatched(ns, matches)
  {
    if ForestUnmatched(ns, matches) {
      RemoveForestKeepsUnmatched(ns, matches);
    }
  }

  /** `purge`: removal, then the walk; the result passes the walk unchanged
      and keeps every character of text that survived removal. How each
      element fares is stated node by node on `RemoveNode` and `CleanNode`. */
  function Purge(ns: seq<Node>, matches: (string, seq<Attr>) -> bool): (r: seq<Node>)
    ensures r == CleanForest(RemoveForest(ns, matches))
    ensures ForestOk(r)
    ensures CleanForest(r) == r
    ensures TextOfForest(r) == TextOfForest(RemoveForest(ns, matches))
  {
    var r := CleanForest(RemoveForest(ns, matches));
    CleanIdempotent(RemoveForest(ns, matches));
    r
  }
}

=== FILE: segmenter.dfy ===
/** The segmentation of `read_last_feed` (main.py:273-341): content without
    images becomes one text message, summarised when its markup is too long;
    otherwise the sanitised content's markup is split at each image's
    boundary, in document order, into text messages, image messages and
    their captions. */
module Segmenter {
  import opened Wrappers
  import opened Strings
  import opened Html
  import opened Chunking
  import opened Summarizer
  import opened Messages
  import opened Images

  /** MAX_CAP_LEN (main.py:87). */
  const MaxCapLen: nat := 1024

  /** The split point: the wrapping link when there is one (main.py:283-287).
      Either way it holds the image's markup, so the split consumes the image. */
  function Boundary(site: ImageSite): (b: string)
    ensures site.wrapper.Some? ==> b == site.wrapper.value.markup
    ensures site.wrapper.None? ==> b == site.markup
    ensures WellShaped(site) ==> Contains(b, site.markup)
  {
    if site.wrapper.Some? then site.wrapper.value.markup
    else
      assert OccursAt(site.markup, site.markup, 0) by {
        assert site.markup[0..|site.markup|] == site.markup;
      }
      site.markup
  }

  function Boundaries(sites: seq<ImageSite>): (r: seq<string>)
    ensures |r| == |sites|
    ensures forall i :: 0 <= i < |r| ==> r[i] == Boundary(sites[i])
  {
    if |sites| == 0 then [] else [Boundary(sites[0])] + Boundaries(sites[1..])
  }

  /** The image message for a site (main.py:309-316, 319-326, 331-338): its
      `src`, an empty caption, and an "Open image link" button to the
      wrapping link's `href`. None where `img['src']` or
      `img.parent['href']` raises. */
  function ImageUnitFor(site: ImageSite): (r: Option<Unit>)
    ensures r.Some? <==> site.src.Some? && (site.wrapper.Some? ==> site.wrapper.value.href.Some?)
    ensures r.Some? ==> r.value.ImageUnit? && r.value.src == site.src.value && r.value.text == ""
    ensures r.Some? && site.wrapper.Some? ==>
      r.value.markup == [[Button(OpenImageLabel, site.wrapper.value.href.value)]]
    ensures r.Some? && site.wrapper.None? ==> r.value.markup == []
  {
    match (site.src, site.wrapper)
    case (None, _) => None
    case (Some(src), None) => Some(ImageUnit(src, "", []))
    case (Some(src), Some(w)) =>
      if w.href.None? then None
      else Some(ImageUnit(src, "", [[Button(OpenImageLabel, w.href.value)]]))
  }

  /** The image messages expected for the sites, None when one lacks `src`. */
  function ImageUnitsFor(sites: seq<ImageSite>): (r: Option<seq<Unit>>)
    ensures r.Some? ==> |r.value| == |sites|
    ensures r.Some? ==> forall i :: 0 <= i < |sites| ==> ImageUnitFor(sites[i]) == Some(r.value[i])
  {
    if |sites| == 0 then Some([])
    else
      var head, tail := ImageUnitFor(sites[0]), ImageUnitsFor(sites[1..]);
      if head.Some? && tail.Some? then Some([head.value] + tail.value) else None
  }

  /** `content.split(sep, 1)` at every boundary in turn: the text pieces
      before each boundary and what follows the last one. */
  function SplitAll(s: string, bounds: seq<string>): (r: Option<(seq<string>, string)>)
    ensures r.Some? ==> |r.value.0| == |bounds|
    ensures r.Some? ==> Weave(r.value.0, bounds) + r.value.1 == s
    ensures r.Some? ==> forall i :: 0 <= i < |bounds| ==> !Contains(r.value.0[i], bounds[i])
  {
    if |bounds| == 0 then Some(([], s))
    else match SplitOnce(s, bounds[0])
      case None => None
      case Some((before, after)) =>
        match SplitAll(after, bounds[1..])
        case None => None
        case Some((gaps, rest)) =>
          assert ([before] + gaps)[1..] == gaps;
          Some(([before] + gaps, rest))
  }

  /** Pieces and boundaries interleaved: piece 0, boundary 0, piece 1, ... */
  function Weave(gaps: seq<string>, bounds: seq<string>): string
    requires |gaps| == |bounds|
  {
    if |gaps| == 0 then "" else gaps[0] + bounds[0] + Weave(gaps[1..], bounds[1..])
  }

  /** The loop state: messages so far, the content not yet split, and `first`. */
  datatype Progress = Progress(units: seq<Unit>, rest: string, first: bool)

  lemma GrowLast(init: seq<Unit>, last: Unit, extra: string, img: Unit)
    requires img.ImageUnit?
    ensures Texts(init + [last.(text := last.text + extra)] + [img]) == Texts(init + [last]) + extra + img.text
    ensures ImageMessages(init + [last.(text := last.text + extra)] + [img]) == ImageMessages(init + [last]) + [img.(text := "")]
  {
    var grown := last.(text := last.text + extra);
    GrowLastTexts(init, last, grown, extra, img);
    GrowLastImages(init, last, grown, img);
  }

  lemma GrowLastTexts(init: seq<Unit>, last: Unit, grown: Unit, extra: string, img: Unit)
    requires grown.text == last.text + extra
    ensures Texts(init + [grown] + [img]) == Texts(init + [last]) + extra + img.text
  {
    assert Texts([last]) == last.text;
    assert Texts([grown]) == last.text + extra;
    assert Texts([img]) == img.text;
    TextsAppend(init, [last]);
    TextsAppend(init, [grown]);
    TextsAppend(init + [grown], [img]);
    AppendAssoc(Texts(init), last.text, extra);
  }

  lemma GrowLastImages(init: seq<Unit>, last: Unit, grown: Unit, img: Unit)
    requires img.ImageUnit? && grown == last.(text := grown.text)
    ensures ImageMessages(init + [grown] + [img]) == ImageMessages(init + [last]) + [img.(text := "")]
  {
    assert ImageMessages([img]) == [img.(text := "")];
    assert ImageMessages([grown]) == ImageMessages([last]) by {
      if last.ImageUnit? {
        assert grown.(text := "") == last.(text := "");
      }
    }
    ImageMessagesAppend(init, [last]);
    ImageMessagesAppend(init, [grown]);
    ImageMessagesAppend(init + [grown], [img]);
  }

  /** An image after the first (main.py:329-339): the previous message's
      text grows by the first 1024 characters of the preceding text and the
      new image message carries the remainder as its caption. */
  function NextImage(units: seq<Unit>, gap: string, site: ImageSite): (r: Option<seq<Unit>>)
    ensures r.Some? <==> |units| > 0 && ImageUnitFor(site).Some?
    ensures r.Some? ==> |r.value| == |units| + 1
    ensures r.Some? ==> r.value[..|units| - 1] == units[..|units| - 1]
    ensures r.Some? ==> r.value[|units| - 1] == units[|units| - 1].(text := units[|units| - 1].text + Take(gap, MaxCapLen))
    ensures r.Some? ==> r.value[|units|] == ImageUnitFor(site).value.(text := Drop(gap, MaxCapLen))
    ensures r.Some? ==> Texts(r.value) == Texts(units) + gap
    ensures r.Some? ==> ImageMessages(r.value) == ImageMessages(units) + [ImageUnitFor(site).value]
  {
    if |units| == 0 then None
    else match ImageUnitFor(site)
      case None => None
      case Some(u) =>
        var last := units[|units| - 1];
        var grown := last.(text := last.text + Take(gap, MaxCapLen));
        var img := u.(text := Drop(gap, MaxCapLen));
        var r := units[..|units| - 1] + [grown] + [img];
        assert units == units[..|units| - 1] + [last];
        GrowLast(units[..|units| - 1], last, Take(gap, MaxCapLen), img);
        Some(r)
  }

  /** The first image (main.py:294-328), with the list started instead of
      `messages[0]` assigned and the leading text cut into 4096-character
      messages instead of the `while` loop that never ends. The image message
      is added only when content follows it (main.py:308). */
  function FirstImage(units: seq<Unit>, gap: string, rest: string, site: ImageSite): (r: Option<seq<Unit>>)
    ensures r.None? <==> ImageUnitFor(site).None? && (|gap| == 0 || |rest| > 0)
    ensures r.Some? && |gap| > 0 && |rest| == 0 ==> r.value == units + TextUnits(Chunks(gap, MaxMsgLen))
    ensures r.Some? && (|gap| == 0 || |rest| > 0) ==>
      r.value == units + TextUnits(Chunks(gap, MaxMsgLen)) + [ImageUnitFor(site).value]
    ensures r.Some? ==> Texts(r.value) == Texts(units) + gap
    ensures r.Some? && (|gap| == 0 || |rest| > 0) ==> ImageMessages(r.value) == ImageMessages(units) + [ImageUnitFor(site).value]
    ensures r.Some? && |gap| > 0 && |rest| == 0 ==> ImageMessages(r.value) == ImageMessages(units)
    ensures r.Some? ==> |r.value| > |units|
  {
    var lead := TextUnits(Chunks(gap, MaxMsgLen));
    ChunksNonEmpty(gap);
    TextsOfTextUnits(Chunks(gap, MaxMsgLen));
    NoImageMessagesInTextUnits(Chunks(gap, MaxMsgLen));
    TextsAppend(units, lead);
    ImageMessagesAppend(units, lead);
    if |gap| > 0 && |rest| == 0 then Some(units + lead)
    else match ImageUnitFor(site)
      case None => None
      case Some(u) =>
        TextsAppend(units + lead, [u]);
        ImageMessagesAppend(units + lead, [u]);
        Some(units + lead + [u])
  }

  /** Text to send is never cut into no message at all. */
  lemma ChunksNonEmpty(gap: string)
    ensures |gap| > 0 ==> |Chunks(gap, MaxMsgLen)| > 0
  {
  }

  /** One iteration of `for img in images`: the remaining content is split
      at the boundary, what precedes it joins the messages' text, and each
      image after the first adds exactly its own image message. */
  function Step(p: Progress, site: ImageSite): (r: Option<Progress>)
    ensures r.Some? ==> !r.value.first
    ensures r.Some? ==> SplitOnce(p.rest, Boundary(site)).Some?
    ensures r.Some? ==> r.value.rest == SplitOnce(p.rest, Boundary(site)).value.1
    ensures r.Some? ==> Texts(r.value.units) == Texts(p.units) + SplitOnce(p.rest, Boundary(site)).value.0
    ensures r.Some? && !p.first ==>
      ImageUnitFor(site).Some? && ImageMessages(r.value.units) == ImageMessages(p.units) + [ImageUnitFor(site).value]
    ensures r.Some? ==> |r.value.units| > 0
    ensures SplitOnce(p.rest, Boundary(site)).Some? && ImageUnitFor(site).Some? && (!p.first ==> |p.units| > 0) ==> r.Some?
  {
    if site.wrapper.Some? && site.wrapper.value.href.None? then None
    else match SplitOnce(p.rest, Boundary(site))
      case None => None
      case Some((gap, rest)) =>
        var units := if p.first then FirstImage(p.units, gap, rest, site) else NextImage(p.units, gap, site);
        match units
        case None => None
        case Some(us) => Some(Progress(us, rest, false))
  }

  /** The whole loop: the content still to split only shrinks, the
      messages' text only grows at its end, and after the first image every
      image adds exactly one image message. */
  function Walk(p: Progress, sites: seq<ImageSite>): (r: Option<Progress>)
    decreases |sites|
    ensures r.Some? ==> |r.value.rest| <= |p.rest|
    ensures r.Some? ==> Texts(p.units) <= Texts(r.value.units)
    ensures r.Some? && |sites| > 0 ==> !r.value.first
    ensures r.Some? && !p.first ==> |ImageMessages(r.value.units)| == |ImageMessages(p.units)| + |sites|
    ensures r.Some? && (|sites| > 0 || |p.units| > 0) ==> |r.value.units| > 0
    ensures (!p.first ==> |p.units| > 0) && SplitAll(p.rest, Boundaries(sites)).Some? && ImageUnitsFor(sites).Some? ==> r.Some?
  {
    if |sites| == 0 then Some(p)
    else match Step(p, sites[0])
      case None => None
      case Some(q) => Walk(q, sites[1..])
  }

  /** `for img in images:` and the leftover appended to the last message
      (main.py:281-341), on content that has images. It fails when the loop
      fails or leaves no message (`messages[-1]` on an empty list), so
      always without images; otherwise the leftover joins the text and no
      message or image is added. */
  function Place(content: string, sites: seq<ImageSite>): (r: Option<seq<Unit>>)
    ensures r.Some? <==> Walk(Progress([], content, true), sites).Some? && |Walk(Progress([], content, true), sites).value.units| > 0
    ensures |sites| == 0 ==> r.None?
    ensures r.Some? ==>
      var p := Walk(Progress([], content, true), sites).value;
      && |r.value| == |p.units|
      && Texts(r.value) == Texts(p.units) + p.rest
      && ImageMessages(r.value) == ImageMessages(p.units)
    ensures |sites| > 0 && SplitAll(content, Boundaries(sites)).Some? && ImageUnitsFor(sites).Some? ==> r.Some?
  {
    match Walk(Progress([], content, true), sites)
      case None => None
      case Some(p) =>
      if |p.units| == 0 then None
      else
        var last := p.units[|p.units| - 1];
        AppendToLast(p.units, p.rest);
        Some(p.units[..|p.units| - 1] + [last.(text := last.text + p.rest)])
  }

  /** The one text of content without images (main.py:276-278): its markup,
      summarised when longer than 4096 characters. */
  function Fit(nodes: seq<Node>, readMore: string, asWritten: bool): (t: string)
    ensures |SerializeForest(nodes)| <= MaxMsgLen ==> t == SerializeForest(nodes)
    ensures |SerializeForest(nodes)| > MaxMsgLen ==>
      && |t| >= |readMore| && t[|t| - |readMore|..] == readMore
      && t[..|t| - |readMore|] == SerializeForest(SummaryForest(nodes, MaxMsgLen, readMore, asWritten))
    ensures !asWritten && |SerializeForest(nodes)| > MaxMsgLen && |readMore| <= MaxMsgLen ==> |t| <= MaxMsgLen
  {
    if |SerializeForest(nodes)| <= MaxMsgLen then SerializeForest(nodes)
    else if asWritten then SummarizeAsWritten(nodes, MaxMsgLen, readMore)
    else Summarize(nodes, MaxMsgLen, readMore)
  }

  /** The body of `if content_selector:` from the image search on
      (main.py:273-341), with the leftover appended only after images.
      Without images there is exactly one text message and no image; with
      images the messages' texts are the content's markup with every
      boundary cut out. */
  function Segment(nodes: seq<Node>, readMore: string): (r: Option<seq<Unit>>)
    ensures |ImageSites(nodes)| == 0 ==>
      r.Some? && |r.value| == 1 && r.value[0].TextUnit? && r.value[0].markup == [] && ImageMessages(r.value) == []
    ensures |ImageSites(nodes)| > 0 && r.Some? ==>
      && SplitAll(SerializeForest(nodes), Boundaries(ImageSites(nodes))).Some?
      && var split := SplitAll(SerializeForest(nodes), Boundaries(ImageSites(nodes))).value;
         Texts(r.value) == Concat(split.0) + split.1
    ensures var sites := ImageSites(nodes);
      |sites| > 0 && SplitAll(SerializeForest(nodes), Boundaries(sites)).Some? && ImageUnitsFor(sites).Some? ==> r.Some?
  {
    var sites := ImageSites(nodes);
    if |sites| == 0 then Some([TextUnit(Fit(nodes, readMore, false), [])])
    else
      var r := Place(SerializeForest(nodes), sites);
      if r.None? then r
      else
        PlaceKeepsText(SerializeForest(nodes), sites);
        r
  }

  lemma WalkUnfold(p: Progress, sites: seq<ImageSite>)
    requires |sites| > 0 && Walk(p, sites).Some?
    ensures Step(p, sites[0]).Some?
    ensures Walk(p, sites) == Walk(Step(p, sites[0]).value, sites[1..])
  {
  }

  lemma SplitAllUnfold(s: string, bounds: seq<string>, gap: string, after: string)
    requires |bounds| > 0 && SplitOnce(s, bounds[0]) == Some((gap, after))
    requires SplitAll(after, bounds[1..]).Some?
    ensures SplitAll(s, bounds) == Some(([gap] + SplitAll(after, bounds[1..]).value.0, SplitAll(after, bounds[1..]).value.1))
  {
  }

  lemma ConcatCons(gap: string, gaps: seq<string>)
    ensures Concat([gap] + gaps) == gap + Concat(gaps)
  {
    assert ([gap] + gaps)[1..] == gaps;
  }

  lemma {:induction false} WalkSplits(p: Progress, sites: seq<ImageSite>)
    requires Walk(p, sites).Some?
    ensures SplitAll(p.rest, Boundaries(sites)).Some?
    ensures SplitAll(p.rest, Boundaries(sites)).value.1 == Walk(p, sites).value.rest
    decreases |sites|
  {
    if |sites| > 0 {
      WalkUnfold(p, sites);
      var q := Step(p, sites[0]).value;
      WalkSplits(q, sites[1..]);
      var bounds := Boundaries(sites);
      assert bounds[0] == Boundary(sites[0]) && bounds[1..] == Boundaries(sites[1..]);
      SplitAllUnfold(p.rest, bounds, SplitOnce(p.rest, bounds[0]).value.0, q.rest);
    }
  }

  lemma {:induction false} WalkKeepsText(p: Progress, sites: seq<ImageSite>)
    requires Walk(p, sites).Some?
    ensures SplitAll(p.rest, Boundaries(sites)).Some?
    ensures Texts(Walk(p, sites).value.units) == Texts(p.units) + Concat(SplitAll(p.rest, Boundaries(sites)).value.0)
    decreases |sites|
  {
    WalkSplits(p, sites);
    if |sites| > 0 {
      WalkUnfold(p, sites);
      var q := Step(p, sites[0]).value;
      WalkKeepsText(q, sites[1..]);
      var bounds := Boundaries(sites);
      assert bounds[0] == Boundary(sites[0]) && bounds[1..] == Boundaries(sites[1..]);
      var gap := SplitOnce(p.rest, bounds[0]).value.0;
      SplitAllUnfold(p.rest, bounds, gap, q.rest);
      var gaps := SplitAll(q.rest, bounds[1..]).value.0;
      ConcatCons(gap, gaps);
      AppendAssoc(Texts(p.units), gap, Concat(gaps));
    }
  }

  lemma {:induction false} WalkAddsImages(p: Progress, sites: seq<ImageSite>)
    requires !p.first && Walk(p, sites).Some?
    ensures ImageUnitsFor(sites).Some?
    ensures ImageMessages(Walk(p, sites).value.units) == ImageMessages(p.units) + ImageUnitsFor(sites).value
    decreases |sites|
  {
    if |sites| > 0 {
      WalkUnfold(p, sites);
      var q := Step(p, sites[0]).value;
      WalkAddsImages(q, sites[1..]);
      var u := ImageUnitFor(sites[0]).value;
      assert ImageUnitsFor(sites).value == [u] + ImageUnitsFor(sites[1..]).value;
      AppendAssoc(ImageMessages(p.units), [u], ImageUnitsFor(sites[1..]).value);
    }
  }

  /** Appending the leftover to the last message adds it to the text and
      leaves the image messages alone. */
  lemma AppendToLast(units: seq<Unit>, extra: string)
    requires |units| > 0
    ensures var last := units[|units| - 1];
      var r := units[..|units| - 1] + [last.(text := last.text + extra)];
      Texts(r) == Texts(units) + extra && ImageMessages(r) == ImageMessages(units)
  {
    var init, last := units[..|units| - 1], units[|units| - 1];
    var grown := last.(text := last.text + extra);
    assert units == init + [last];
    assert Texts([last]) == last.text;
    assert Texts([grown]) == last.text + extra;
    TextsAppend(init, [last]);
    TextsAppend(init, [grown]);
    assert ImageMessages([grown]) == ImageMessages([last]) by {
      if last.ImageUnit? {
        assert grown.(text := "") == last.(text := "");
      }
    }
    ImageMessagesAppend(init, [last]);
    ImageMessagesAppend(init, [grown]);
  }

  /** Segmenting content with images loses no text: the messages' texts are
      the content with every boundary cut out (SplitAll weaves the pieces and
      boundaries back into the content). */
  lemma PlaceKeepsText(content: string, sites: seq<ImageSite>)
    requires |sites| > 0
    requires Place(content, sites).Some?
    ensures SplitAll(content, Boundaries(sites)).Some?
    ensures var split := SplitAll(content, Boundaries(sites)).value;
      Texts(Place(content, sites).value) == Concat(split.0) + split.1
  {
    var p0 := Progress([], content, true);
    WalkSplits(p0, sites);
    WalkKeepsText(p0, sites);
    var p := Walk(p0, sites).value;
    AppendToLast(p.units, p.rest);
    var split := SplitAll(content, Boundaries(sites)).value;
    assert Texts(p.units) == Concat(split.0) by {
      assert Texts(p0.units) == "";
    }
  }

  /** The first image's step adds its image message unless text precedes it
      and nothing follows it. */
  lemma FirstStepImages(content: string, site: ImageSite)
    requires Step(Progress([], content, true), site).Some?
    ensures var split := SplitOnce(content, Boundary(site)).value;
      var q := Step(Progress([], content, true), site).value;
      if |split.0| > 0 && |split.1| == 0 then ImageMessages(q.units) == []
      else ImageUnitFor(site).Some? && ImageMessages(q.units) == [ImageUnitFor(site).value]
  {
  }

  /** The image messages are the sites' images in document order; the one
      exception is the source's `if content:` test, which drops a sole image
      that ends the content. */
  lemma PlaceKeepsImages(content: string, sites: seq<ImageSite>)
    requires |sites| > 0
    requires Place(content, sites).Some?
    ensures SplitAll(content, Boundaries(sites)).Some?
    ensures var units := Place(content, sites).value;
      var split := SplitAll(content, Boundaries(sites)).value;
      if |sites| == 1 && |split.0[0]| > 0 && |split.1| == 0 then ImageMessages(units) == []
      else ImageUnitsFor(sites).Some? && ImageMessages(units) == ImageUnitsFor(sites).value
  {
    SplitAllFirst(content, sites);
    PlaceImagesByFirstSplit(content, sites);
  }

  /** The same, stated on the split at the first boundary alone. */
  lemma PlaceImagesByFirstSplit(content: string, sites: seq<ImageSite>)
    requires |sites| > 0
    requires Place(content, sites).Some?
    ensures SplitOnce(content, Boundary(sites[0])).Some?
    ensures var units := Place(content, sites).value;
      var first := SplitOnce(content, Boundary(sites[0])).value;
      if |first.0| > 0 && |first.1| == 0 then |sites| == 1 && ImageMessages(units) == []
      else ImageUnitsFor(sites).Some? && ImageMessages(units) == ImageUnitsFor(sites).value
  {
    PlaceImagesAfterFirst(content, sites);
    FirstStepImages(content, sites[0]);
    var q := Step(Progress([], content, true), sites[0]).value;
    WalkNeedsContent(q, sites[1..]);
    var first := SplitOnce(content, Boundary(sites[0])).value;
    var tail := ImageUnitsFor(sites[1..]).value;
    if |first.0| > 0 && |first.1| == 0 {
      assert tail == [];
      AppendNothing(ImageMessages(q.units));
    } else {
      ImageUnitsForCons(sites, ImageUnitFor(sites[0]).value, tail);
    }
  }

  lemma ImageUnitsForCons(sites: seq<ImageSite>, u: Unit, us: seq<Unit>)
    requires |sites| > 0 && ImageUnitFor(sites[0]) == Some(u) && ImageUnitsFor(sites[1..]) == Some(us)
    ensures ImageUnitsFor(sites) == Some([u] + us)
  {
  }

  /** No boundary is found in content that is used up, so no image can follow. */
  lemma WalkNeedsContent(p: Progress, sites: seq<ImageSite>)
    ensures p.rest == "" && Walk(p, sites).Some? ==> |sites| == 0
  {
    if p.rest == "" && Walk(p, sites).Some? && |sites| > 0 {
      WalkUnfold(p, sites);
    }
  }

  /** The image messages of a segmentation: the first step's, then those of
      every later image. */
  lemma PlaceImagesAfterFirst(content: string, sites: seq<ImageSite>)
    requires |sites| > 0
    requires Place(content, sites).Some?
    ensures Step(Progress([], content, true), sites[0]).Some?
    ensures var q := Step(Progress([], content, true), sites[0]).value;
      && Walk(q, sites[1..]).Some?
      && ImageUnitsFor(sites[1..]).Some?
      && ImageMessages(Place(content, sites).value) == ImageMessages(q.units) + ImageUnitsFor(sites[1..]).value
  {
    var p0 := Progress([], content, true);
    WalkUnfold(p0, sites);
    var p := Walk(p0, sites).value;
    AppendToLast(p.units, p.rest);
    WalkAddsImages(Step(p0, sites[0]).value, sites[1..]);
  }

  /** The first piece of the full split is the text before the first
      boundary; with one image, the leftover is what follows it. */
  lemma SplitAllFirst(content: string, sites: seq<ImageSite>)
    requires |sites| > 0
    requires Place(content, sites).Some?
    ensures SplitAll(content, Boundaries(sites)).Some?
    ensures SplitOnce(content, Boundary(sites[0])).Some?
    ensures SplitAll(content, Boundaries(sites)).value.0[0] == SplitOnce(content, Boundary(sites[0])).value.0
    ensures |sites| == 1 ==> SplitAll(content, Boundaries(sites)).value.1 == SplitOnce(content, Boundary(sites[0])).value.1
  {
    var p0 := Progress([], content, true);
    WalkSplits(p0, sites);
    WalkUnfold(p0, sites);
    var q := Step(p0, sites[0]).value;
    WalkSplits(q, sites[1..]);
    var bounds := Boundaries(sites);
    assert bounds[1..] == Boundaries(sites[1..]);
    var split := SplitOnce(content, bounds[0]).value;
    SplitAllUnfold(content, bounds, split.0, split.1);
  }

  /** Without images there is exactly one text message: the content's
      markup when it fits, otherwise the markup of what the summary walk
      leaves of the tree followed by the read-more suffix. What is left is
      the same tree pruned (tags kept whole, text cut), its text is a prefix
      of the content's text, and the message fits in 4096 characters. */
  lemma SegmentWithoutImages(nodes: seq<Node>, readMore: string)
    requires |ImageSites(nodes)| == 0
    ensures var r := Segment(nodes, readMore);
      && r.Some? && |r.value| == 1 && r.value[0].TextUnit? && r.value[0].markup == []
      && (|SerializeForest(nodes)| <= MaxMsgLen ==> r.value[0].text == SerializeForest(nodes))
      && (|SerializeForest(nodes)| > MaxMsgLen ==>
            var p := SummaryForest(nodes, MaxMsgLen, readMore, false);
            && r.value[0].text == SerializeForest(p) + readMore
            && PrunedForest(p, nodes)
            && TextOfForest(p) <= TextOfForest(nodes)
            && (|readMore| <= MaxMsgLen ==> |r.value[0].text| <= MaxMsgLen))
  {
    var t := Segment(nodes, readMore).value[0].text;
    if |SerializeForest(nodes)| > MaxMsgLen {
      assert t == Summarize(nodes, MaxMsgLen, readMore);
      assert t == t[..|t| - |readMore|] + t[|t| - |readMore|..];
    }
  }

  /** The site has a `src` (and an `href` when linked), its boundary is a
      tag, and the text before it holds no `<`, so the split lands on it. */
  predicate LoneImage(before: string, site: ImageSite)
  {
    && site.src.Some?
    && (site.wrapper.Some? ==> site.wrapper.value.href.Some?)
    && |Boundary(site)| > 0 && Boundary(site)[0] == '<'
    && forall i :: 0 <= i < |before| ==> before[i] != '<'
  }

  /** One image inside text that has no `<`: a text message per 4096
      characters before it, then the image message whose caption is the text
      after it and whose only button, for a linked image, opens the link.
      With nothing after the image, the image message is dropped. */
  lemma SingleImagePlace(before: string, site: ImageSite, after: string)
    requires LoneImage(before, site)
    ensures var img := ImageUnitFor(site).value.(text := after);
      Place(before + Boundary(site) + after, [site]) ==
        if |before| == 0 then Some([img])
        else if |after| == 0 then Some(TextUnits(Chunks(before, MaxMsgLen)))
        else Some(TextUnits(Chunks(before, MaxMsgLen)) + [img])
  {
    var content := before + Boundary(site) + after;
    SingleWalk(before, site, after);
    PlaceAfterWalk(content, [site]);
    var q := Walk(Progress([], content, true), [site]).value;
    LeftoverOnSingle(q.units, ImageUnitFor(site).value, TextUnits(Chunks(before, MaxMsgLen)), before, after);
  }

  /** With one image, the walk is its first step. */
  lemma SingleWalk(before: string, site: ImageSite, after: string)
    requires LoneImage(before, site)
    ensures var u := ImageUnitFor(site).value;
      var lead := TextUnits(Chunks(before, MaxMsgLen));
      Walk(Progress([], before + Boundary(site) + after, true), [site]) ==
        Some(Progress(if |before| == 0 then [u] else if |after| == 0 then lead else lead + [u], after, false))
  {
    var content := before + Boundary(site) + after;
    SplitOnceAt(before, Boundary(site), after);
    FirstStepOf(content, site, before, after);
    assert Walk(Progress([], content, true), [site]) == Step(Progress([], content, true), site);
  }

  /** Appending what follows the only image to the last of the first step's messages. */
  lemma LeftoverOnSingle(units: seq<Unit>, u: Unit, lead: seq<Unit>, before: string, after: string)
    requires u.text == "" && (|lead| > 0 <==> |before| > 0)
    requires units == if |before| == 0 then [u] else if |after| == 0 then lead else lead + [u]
    ensures var n := |units|;
      && n > 0
      && units[..n - 1] + [units[n - 1].(text := units[n - 1].text + after)] ==
         if |before| == 0 then [u.(text := after)] else if |after| == 0 then lead else lead + [u.(text := after)]
  {
    if |before| == 0 {
      AppendEmpty(after);
      AppendEmpty([u.(text := after)]);
    } else if |after| == 0 {
      var last := lead[|lead| - 1];
      AppendNothing(last.text);
      assert last.(text := last.text + "") == last;
      InitLast(lead);
    } else {
      PrefixOfAppend(lead, [u]);
      AppendEmpty(after);
    }
  }

  /** The leftover joins the last message once every image is placed. */
  lemma PlaceAfterWalk(content: string, sites: seq<ImageSite>)
    requires |sites| > 0 && Walk(Progress([], content, true), sites).Some?
    ensures var p := Walk(Progress([], content, true), sites).value;
      var n := |p.units|;
      n > 0 ==> Place(content, sites) == Some(p.units[..n - 1] + [p.units[n - 1].(text := p.units[n - 1].text + p.rest)])
  {
  }

  /** The first step when the split lands between `before` and `after`. */
  lemma FirstStepOf(content: string, site: ImageSite, before: string, after: string)
    requires SplitOnce(content, Boundary(site)) == Some((before, after))
    requires site.src.Some? && (site.wrapper.Some? ==> site.wrapper.value.href.Some?)
    ensures var u := ImageUnitFor(site).value;
      var lead := TextUnits(Chunks(before, MaxMsgLen));
      Step(Progress([], content, true), site) ==
        Some(Progress(if |before| == 0 then [u] else if |after| == 0 then lead else lead + [u], after, false))
  {
    FirstImageFromNothing(before, after, site);
  }

  lemma FirstImageFromNothing(before: string, after: string, site: ImageSite)
    requires ImageUnitFor(site).Some?
    ensures var u := ImageUnitFor(site).value;
      var lead := TextUnits(Chunks(before, MaxMsgLen));
      FirstImage([], before, after, site) ==
        Some(if |before| == 0 then [u] else if |after| == 0 then lead else lead + [u])
  {
    var u := ImageUnitFor(site).value;
    var lead := TextUnits(Chunks(before, MaxMsgLen));
    AppendEmpty(lead);
    AppendEmpty([u]);
    AppendEmpty(lead + [u]);
  }

  // The loop as written. `messages` starts empty, so the `messages[0] = ...`
  // of the first image raises; the `while first_part:` loop never shortens
  // `first_part`; and the leftover is appended after the loop whether or
  // not there were images. A loop that does not end is modelled by `fuel`:
  // None when the fuel runs out.

  /** `messages[0] = m` (main.py:296, 327): IndexError on an empty list. */
  function SetFirstAsWritten(messages: seq<Unit>, m: Unit): (r: Option<seq<Unit>>)
    ensures r.Some? <==> |messages| > 0
    ensures r.Some? ==> |r.value| == |messages| && r.value[0] == m && r.value[1..] == messages[1..]
  {
    if |messages| == 0 then None else Some([m] + messages[1..])
  }

  /** `while first_part:` (main.py:302-307): appends `first_part[:4096]`
      without ever shortening `first_part`. */
  function LeadLoopAsWritten(messages: seq<Unit>, firstPart: string, fuel: nat): (r: Option<seq<Unit>>)
    decreases fuel
    ensures |firstPart| == 0 ==> r == Some(messages)
    ensures r.Some? ==> r.value == messages
  {
    if |firstPart| == 0 then Some(messages)
    else if fuel == 0 then None
    else LeadLoopAsWritten(messages + [TextUnit(Take(firstPart, MaxMsgLen), [])], firstPart, fuel - 1)
  }

  /** Leading text beyond the first 4096 characters keeps the loop running
      for any number of iterations; Chunks is what it was meant to produce. */
  lemma {:induction false} LeadLoopNeverEnds(messages: seq<Unit>, firstPart: string, fuel: nat)
    requires |firstPart| > 0
    ensures LeadLoopAsWritten(messages, firstPart, fuel).None?
    decreases fuel
  {
    if fuel > 0 {
      LeadLoopNeverEnds(messages + [TextUnit(Take(firstPart, MaxMsgLen), [])], firstPart, fuel - 1);
    }
  }

  /** The first image as written (main.py:294-328). */
  function FirstImageAsWritten(messages: seq<Unit>, gap: string, rest: string, site: ImageSite, fuel: nat): (r: Option<seq<Unit>>)
    ensures |messages| == 0 ==> r.None?
  {
    if |gap| > 0 then
      match SetFirstAsWritten(messages, TextUnit(Take(gap, MaxMsgLen), []))
      case None => None
      case Some(us) =>
        match LeadLoopAsWritten(us, Drop(gap, MaxMsgLen), fuel)
        case None => None
        case Some(vs) =>
          if |rest| == 0 then Some(vs)
          else match ImageUnitFor(site)
            case None => None
            case Some(u) => Some(vs + [u])
    else match ImageUnitFor(site)
      case None => None
      case Some(u) => SetFirstAsWritten(messages, u)
  }

  /** One pass as written: on the empty list of the first image it fails;
      after the first image it is the corrected pass. */
  function StepAsWritten(p: Progress, site: ImageSite, fuel: nat): (r: Option<Progress>)
    ensures p.first && |p.units| == 0 ==> r.None?
    ensures !p.first ==> r == Step(p, site)
    ensures r.Some? ==> !r.value.first
  {
    if site.wrapper.Some? && site.wrapper.value.href.None? then None
    else match SplitOnce(p.rest, Boundary(site))
      case None => None
      case Some((gap, rest)) =>
        var units := if p.first then FirstImageAsWritten(p.units, gap, rest, site, fuel) else NextImage(p.units, gap, site);
        match units
        case None => None
        case Some(us) => Some(Progress(us, rest, false))
  }

  /** The loop as written fails from the start, and once past the first
      image it agrees with the corrected loop. */
  function WalkAsWritten(p: Progress, sites: seq<ImageSite>, fuel: nat): (r: Option<Progress>)
    decreases |sites|
    ensures |sites| > 0 && p.first && |p.units| == 0 ==> r.None?
    ensures !p.first ==> r == Walk(p, sites)
  {
    if |sites| == 0 then Some(p)
    else match StepAsWritten(p, sites[0], fuel)
      case None => None
      case Some(q) => WalkAsWritten(q, sites[1..], fuel)
  }

  /** The segmentation as written (main.py:273-341); None where it raises
      or does not end within `fuel` iterations of the inner loop. Without
      images `content` is rebound to the summary (or stays the markup) and
      is then appended once more after the loop. */
  function SegmentAsWritten(nodes: seq<Node>, readMore: string, fuel: nat): (r: Option<seq<Unit>>)
    ensures r.Some? <==> |ImageSites(nodes)| == 0
    ensures r.Some? ==> |r.value| == 1 && r.value[0].TextUnit? && r.value[0].markup == []
  {
    var sites := ImageSites(nodes);
    var messages: Option<(seq<Unit>, string)> :=
      if |sites| == 0 then
        var text := Fit(nodes, readMore, true);
        Some(([TextUnit(text, [])], text))
      else match WalkAsWritten(Progress([], SerializeForest(nodes), true), sites, fuel)
        case None => None
        case Some(p) => Some((p.units, p.rest));
    match messages
    case None => None
    case Some((units, leftover)) =>
      if |units| == 0 then None
      else Some(WithLeftover(units, leftover))
  }

  /** `messages[-1]['text'] += content`: the leftover joins the last message. */
  function WithLeftover(units: seq<Unit>, leftover: string): seq<Unit>
  {
    if |units| == 0 then units
    else
      var last := units[|units| - 1];
      units[..|units| - 1] + [last.(text := last.text + leftover)]
  }

  /** As written, content with any image raises at `messages[0] = ...`:
      no message is ever produced for it. */
  lemma SegmentAsWrittenFailsOnImages(nodes: seq<Node>, readMore: string, fuel: nat)
    requires |ImageSites(nodes)| > 0
    ensures SegmentAsWritten(nodes, readMore, fuel).None?
  {
    assert StepAsWritten(Progress([], SerializeForest(nodes), true), ImageSites(nodes)[0], fuel).None?;
  }

  /** As written, content without images is sent twice in one message: the
      text (the markup, or its summary) is appended to itself after the
      loop, while the intended message carries it once. */
  lemma SegmentAsWrittenDoublesText(nodes: seq<Node>, readMore: string, fuel: nat)
    requires |ImageSites(nodes)| == 0
    ensures var t := Fit(nodes, readMore, true);
      SegmentAsWritten(nodes, readMore, fuel) == Some([TextUnit(t + t, [])])
    ensures Segment(nodes, readMore) == Some([TextUnit(Fit(nodes, readMore, false), [])])
  {
    var t := Fit(nodes, readMore, true);
    assert [TextUnit(t, [])][..0] == [];
    AppendEmpty([TextUnit(t + t, [])]);
  }

  /** A content of the one word `hi` becomes the message `hihi`. */
  lemma SegmentAsWrittenDoublesHi()
    ensures SegmentAsWritten([Text("hi")], "", 0) == Some([TextUnit("hihi", [])])
  {
    assert ImageSites([Text("hi")]) == [];
    assert SerializeForest([Text("hi")]) == "hi" + SerializeForest([]);
    assert Fit([Text("hi")], "", true) == "hi";
    SegmentAsWrittenDoublesText([Text("hi")], "", 0);
    assert "hi" + "hi" == "hihi";
  }
}

=== FILE: selection.dfy ===
/** Choosing the item to announce: the skip condition set up in the
    constructor (main.py:139-149) and the loop of `read_last_feed` over the
    feed's items (main.py:243-345). Parsing, CSS selection and regular
    expressions are library calls; an item is given by what those calls
    return for it. */
module Selection {
  import opened Wrappers
  import opened Strings
  import opened Html
  import opened Chunking
  import opened Summarizer
  import opened Messages
  import opened Sanitizer
  import opened Images
  import opened Segmenter

  /** The parsed `feed-skip-condition`: `none`, or `field/pattern`. */
  datatype SkipRule =
    | NoSkip
    | FeedRule(selector: string)
    | ContentRule(selector: string)
    | TitleRule(pattern: string)
    | OtherRule(field: string, pattern: string)

  predicate NoSlash(s: string)
  {
    forall i :: 0 <= i < |s| ==> s[i] != '/'
  }

  lemma NoSlashNotContains(s: string)
    requires NoSlash(s)
    ensures !Contains(s, "/")
  {
    forall i | 0 <= i <= |s|
      ensures !OccursAt(s, "/", i)
    {
      if i + 1 <= |s| {
        assert s[i..i + 1][0] == s[i];
      }
    }
  }

  lemma NotContainsNoSlash(s: string)
    requires !Contains(s, "/")
    ensures NoSlash(s)
  {
    forall i | 0 <= i < |s|
      ensures s[i] != '/'
    {
      if s[i] == '/' {
        assert s[i..i + 1] == "/";
        assert OccursAt(s, "/", i);
      }
    }
  }

  /** `s` holds exactly one `/`. */
  predicate SingleSlash(s: string)
  {
    exists i :: 0 <= i < |s| && s[i] == '/' && NoSlash(s[..i]) && NoSlash(s[i + 1..])
  }

  /** Splitting on the first `/` leaves no `/` behind exactly when there is one. */
  lemma SingleSlashSplits(s: string)
    ensures SingleSlash(s) <==> SplitOnce(s, "/").Some? && !Contains(SplitOnce(s, "/").value.1, "/")
  {
    if SingleSlash(s) {
      var i :| 0 <= i < |s| && s[i] == '/' && NoSlash(s[..i]) && NoSlash(s[i + 1..]);
      assert s == s[..i] + "/" + s[i + 1..];
      SplitField(s[..i], s[i + 1..]);
      NoSlashNotContains(s[i + 1..]);
    }
    if SplitOnce(s, "/").Some? && !Contains(SplitOnce(s, "/").value.1, "/") {
      var field, pat := SplitOnce(s, "/").value.0, SplitOnce(s, "/").value.1;
      NotContainsNoSlash(field);
      NotContainsNoSlash(pat);
      var i := |field|;
      assert s == field + "/" + pat;
      assert s[..i] == field && s[i + 1..] == pat && s[i] == '/';
    }
  }

  /** The constructor's parse (main.py:140-149): `none` never skips;
      anything else must split on `/` into exactly two parts, or the
      unpacking raises (None). */
  function ParseSkipCondition(s: string): (r: Option<SkipRule>)
    ensures s == "none" ==> r == Some(NoSkip)
    ensures r.Some? <==> s == "none" || SingleSlash(s)
    ensures r.Some? && !r.value.NoSkip? ==>
      SplitOnce(s, "/").Some? && SkipField(r.value) == Some(SplitOnce(s, "/").value.0)
  {
    SingleSlashSplits(s);
    if s == "none" then Some(NoSkip)
    else match SplitOnce(s, "/")
      case None => None
      case Some((field, pattern)) =>
        if Contains(pattern, "/") then None
        else if field == "feed" then Some(FeedRule(pattern))
        else if field == "content" then Some(ContentRule(pattern))
        else if field == "title" then Some(TitleRule(pattern))
        else Some(OtherRule(field, pattern))
  }

  /** The rule written back as a configuration string. */
  function RenderSkipRule(rule: SkipRule): string
  {
    match rule
    case NoSkip => "none"
    case FeedRule(sel) => "feed/" + sel
    case ContentRule(sel) => "content/" + sel
    case TitleRule(pat) => "title/" + pat
    case OtherRule(field, pat) => field + "/" + pat
  }

  /** A rule that a configuration string can express: no `/` inside its
      parts and, for another field, a name that is not one of the three. */
  predicate Expressible(rule: SkipRule)
  {
    match rule
    case NoSkip => true
    case FeedRule(sel) => NoSlash(sel)
    case ContentRule(sel) => NoSlash(sel)
    case TitleRule(pat) => NoSlash(pat)
    case OtherRule(field, pat) =>
      NoSlash(field) && NoSlash(pat) && field != "feed" && field != "content" && field != "title"
  }

  lemma SplitField(field: string, pat: string)
    requires NoSlash(field)
    ensures SplitOnce(field + "/" + pat, "/") == Some((field, pat))
  {
    SplitOnceAt(field, "/", pat);
  }

  /** Writing an expressible rule and parsing it back gives the rule. */
  lemma ParseRender(rule: SkipRule)
    requires Expressible(rule)
    ensures ParseSkipCondition(RenderSkipRule(rule)) == Some(rule)
  {
    match rule
    case NoSkip =>
    case FeedRule(sel) =>
      assert "feed/" + sel == "feed" + "/" + sel;
      SplitField("feed", sel);
      NoSlashNotContains(sel);
    case ContentRule(sel) =>
      assert "content/" + sel == "content" + "/" + sel;
      SplitField("content", sel);
      NoSlashNotContains(sel);
    case TitleRule(pat) =>
      assert "title/" + pat == "title" + "/" + pat;
      SplitField("title", pat);
      NoSlashNotContains(pat);
    case OtherRule(field, pat) =>
      SplitField(field, pat);
      NoSlashNotContains(pat);
      assert field + "/" + pat != "none" by {
        assert (field + "/" + pat)[|field|] == '/';
      }
  }

  /** Every accepted string is the rendering of an expressible rule. */
  lemma RenderParse(s: string)
    requires ParseSkipCondition(s).Some?
    ensures Expressible(ParseSkipCondition(s).value)
    ensures RenderSkipRule(ParseSkipCondition(s).value) == s
  {
    if s != "none" {
      var split := SplitOnce(s, "/").value;
      var field, pat := split.0, split.1;
      NotContainsNoSlash(field);
      NotContainsNoSlash(pat);
      assert s == field + "/" + pat;
      if field == "feed" {
        assert "feed/" + pat == field + "/" + pat;
      } else if field == "content" {
        assert "content/" + pat == field + "/" + pat;
      } else if field == "title" {
        assert "title/" + pat == field + "/" + pat;
      }
    }
  }

  /** `self.__skip_field` (main.py:142): unset when the rule is `none`. */
  function SkipField(rule: SkipRule): (r: Option<string>)
    ensures r.None? <==> rule.NoSkip?
  {
    match rule
    case NoSkip => None
    case FeedRule(_) => Some("feed")
    case ContentRule(_) => Some("content")
    case TitleRule(_) => Some("title")
    case OtherRule(field, _) => Some(field)
  }

  /** An item of the feed as the libraries see it: the selectors that
      match inside it, the text of the first match of the title selector,
      the children of the first match of the content selector (None when
      nothing matches), its link, its title and its parsed `pubDate`. */
  datatype Item = Item(
    matched: set<string>,
    titleText: Option<string>,
    content: Option<seq<Node>>,
    link: Option<string>,
    title: Option<string>,
    pubDate: Option<int>)

  /** The configuration `read_last_feed` consults: whether the title and
      content selectors are set, the elements to remove, the read-more
      string, and the regular-expression match of a pattern against a title. */
  datatype Config = Config(
    hasTitleSelector: bool,
    hasContentSelector: bool,
    remove: (string, seq<Attr>) -> bool,
    readMore: string,
    regexMatch: (string, string) -> bool)

  /** What one pass of the loop body does with an item. */
  datatype Verdict = Skip | Take(units: seq<Unit>) | Fail

  /** The content path (main.py:268-341): purge the content, find its
      images and segment it. Without images the one message is the purged
      markup, or the markup of a purged tree the summary walk pruned
      followed by the read-more suffix; either way every tag in it is one
      Telegram accepts. With images the texts are the purged markup with
      every image boundary cut out. */
  function ContentMessages(cfg: Config, nodes: seq<Node>): (r: Option<seq<Unit>>)
    ensures var clean := Purge(nodes, cfg.remove);
      |ImageSites(clean)| == 0 ==>
        && r.Some? && |r.value| == 1 && r.value[0].TextUnit? && r.value[0].markup == []
        && (|SerializeForest(clean)| <= MaxMsgLen ==> r.value[0].text == SerializeForest(clean))
        && (|SerializeForest(clean)| > MaxMsgLen ==>
              var p := SummaryForest(clean, MaxMsgLen, cfg.readMore, false);
              && r.value[0].text == SerializeForest(p) + cfg.readMore
              && ForestOk(p)
              && TextOfForest(p) <= TextOfForest(clean))
    ensures var clean := Purge(nodes, cfg.remove);
      |ImageSites(clean)| > 0 && r.Some? ==>
        && SplitAll(SerializeForest(clean), Boundaries(ImageSites(clean))).Some?
        && var split := SplitAll(SerializeForest(clean), Boundaries(ImageSites(clean))).value;
           Texts(r.value) == Concat(split.0) + split.1
  {
    var clean := Purge(nodes, cfg.remove);
    if |ImageSites(clean)| == 0 then
      SegmentWithoutImages(clean, cfg.readMore);
      PrunedForestStaysOk(SummaryForest(clean, MaxMsgLen, cfg.readMore, false), clean);
      Segment(clean, cfg.readMore)
    else Segment(clean, cfg.readMore)
  }

  /** The loop body for one item (main.py:252-343). As written, reading
      the unset `__skip_field` under `none` raises before anything else. */
  function Consider(cfg: Config, rule: SkipRule, item: Item, asWritten: bool): (r: Verdict)
    ensures rule.FeedRule? && rule.selector in item.matched ==> r.Skip?
    ensures rule.TitleRule? && cfg.hasTitleSelector && item.titleText.Some? && cfg.regexMatch(rule.pattern, item.titleText.value) ==> r.Skip?
    ensures asWritten && rule.NoSkip? ==> r.Fail?
    ensures r.Take? && !cfg.hasContentSelector ==> r.units == []
    ensures r.Take? && cfg.hasContentSelector ==>
      item.content.Some? && ContentMessages(cfg, item.content.value) == Some(r.units)
    ensures r.Fail? <==>
      || (asWritten && rule.NoSkip?)
      || (!(rule.FeedRule? && rule.selector in item.matched) &&
          ((cfg.hasTitleSelector && item.titleText.None?)
           || (!(rule.TitleRule? && cfg.hasTitleSelector && cfg.regexMatch(rule.pattern, item.titleText.value))
               && cfg.hasContentSelector && (item.content.None? || ContentMessages(cfg, item.content.value).None?))))
    ensures r.Skip? ==>
      (rule.FeedRule? && rule.selector in item.matched)
      || (rule.TitleRule? && cfg.hasTitleSelector && item.titleText.Some? && cfg.regexMatch(rule.pattern, item.titleText.value))
  {
    if asWritten && SkipField(rule).None? then Fail
    else if rule.FeedRule? && rule.selector in item.matched then Skip
    else if cfg.hasTitleSelector && item.titleText.None? then Fail
    else if cfg.hasTitleSelector && rule.TitleRule? && cfg.regexMatch(rule.pattern, item.titleText.value) then Skip
    else if !cfg.hasContentSelector then Take([])
    else match item.content
      case None => Fail
      case Some(nodes) =>
        match ContentMessages(cfg, nodes)
        case None => Fail
        case Some(units) => Take(units)
  }

  /** What `read_last_feed` returns: an item and its messages; `(None,
      None)` after an exception; or, when every item is skipped, the bare
      None of falling off the end of the function. */
  datatype Reading = Found(item: Item, units: seq<Unit>) | Failed | Exhausted

  /** The loop over the items (main.py:243-345); `items` is None when the
      download failed after its retries. */
  function ReadLastFeed(cfg: Config, rule: SkipRule, items: Option<seq<Item>>, asWritten: bool): (r: Reading)
    decreases if items.Some? then |items.value| else 0
    ensures items.None? ==> r.Failed?
    ensures r.Found? ==>
      items.Some? && r.item in items.value && Consider(cfg, rule, r.item, asWritten) == Take(r.units)
    ensures r.Exhausted? ==>
      items.Some? && forall i :: 0 <= i < |items.value| ==> Consider(cfg, rule, items.value[i], asWritten).Skip?
  {
    if items.None? then Failed
    else if |items.value| == 0 then Exhausted
    else match Consider(cfg, rule, items.value[0], asWritten)
      case Skip => ReadLastFeed(cfg, rule, Some(items.value[1..]), asWritten)
      case Fail => Failed
      case Take(units) => Found(items.value[0], units)
  }

  /** `i` is the first item that is not skipped (`|items|` when all are). */
  predicate FirstUnskipped(cfg: Config, rule: SkipRule, items: seq<Item>, asWritten: bool, i: nat)
  {
    && i <= |items|
    && (forall j :: 0 <= j < i ==> Consider(cfg, rule, items[j], asWritten).Skip?)
    && (i < |items| ==> !Consider(cfg, rule, items[i], asWritten).Skip?)
  }

  /** Every feed has exactly one first item that is not skipped. */
  lemma {:induction false} FirstUnskippedUnique(cfg: Config, rule: SkipRule, items: seq<Item>, asWritten: bool)
    ensures exists i: nat :: FirstUnskipped(cfg, rule, items, asWritten, i)
    ensures forall i: nat, j: nat :: FirstUnskipped(cfg, rule, items, asWritten, i) && FirstUnskipped(cfg, rule, items, asWritten, j) ==> i == j
  {
    if |items| == 0 {
      assert FirstUnskipped(cfg, rule, items, asWritten, 0);
    } else if !Consider(cfg, rule, items[0], asWritten).Skip? {
      assert FirstUnskipped(cfg, rule, items, asWritten, 0);
    } else {
      FirstUnskippedUnique(cfg, rule, items[1..], asWritten);
      var k: nat :| FirstUnskipped(cfg, rule, items[1..], asWritten, k);
      assert FirstUnskipped(cfg, rule, items, asWritten, k + 1) by {
        forall j | 0 <= j < k + 1
          ensures Consider(cfg, rule, items[j], asWritten).Skip?
        {
          if j > 0 {
            assert items[j] == items[1..][j - 1];
          }
        }
        if k + 1 < |items| {
          assert items[k + 1] == items[1..][k];
        }
      }
    }
  }

  /** The reading is decided by the first item that is not skipped: it is
      that item with its messages, or a failure; only when every item is
      skipped does the loop fall off its end. */
  lemma {:induction false} ReadLastFeedDecidedAt(cfg: Config, rule: SkipRule, items: seq<Item>, asWritten: bool, i: nat)
    requires FirstUnskipped(cfg, rule, items, asWritten, i)
    ensures ReadLastFeed(cfg, rule, Some(items), asWritten) ==
      if i == |items| then Exhausted
      else match Consider(cfg, rule, items[i], asWritten)
        case Take(units) => Found(items[i], units)
        case _ => Failed
  {
    if i > 0 {
      var rest := items[1..];
      assert Consider(cfg, rule, items[0], asWritten).Skip?;
      assert forall j :: 0 <= j < i - 1 ==> rest[j] == items[j + 1];
      ReadLastFeedDecidedAt(cfg, rule, rest, asWritten, i - 1);
    }
  }

  /** As written, the `none` rule makes every read fail on the first item. */
  lemma NoSkipAsWrittenFails(cfg: Config, items: seq<Item>)
    requires |items| > 0
    ensures ReadLastFeed(cfg, NoSkip, Some(items), true) == Failed
  {
  }

  /** As intended, `none` skips nothing: the first item decides the reading. */
  lemma NoSkipReadsFirst(cfg: Config, items: seq<Item>)
    requires |items| > 0
    ensures forall i :: 0 <= i < |items| ==> !Consider(cfg, NoSkip, items[i], false).Skip?
    ensures ReadLastFeed(cfg, NoSkip, Some(items), false) ==
      match Consider(cfg, NoSkip, items[0], false)
      case Take(units) => Found(items[0], units)
      case _ => Failed
  {
  }

  /** The content-scoped rule is set up but never consulted: it reads
      exactly like no rule at all. */
  lemma {:induction false} ContentRuleIgnored(cfg: Config, sel: string, items: Option<seq<Item>>)
    ensures ReadLastFeed(cfg, ContentRule(sel), items, false) == ReadLastFeed(cfg, NoSkip, items, false)
    ensures ReadLastFeed(cfg, ContentRule(sel), items, true) == ReadLastFeed(cfg, NoSkip, items, false)
    decreases if items.Some? then |items.value| else 0
  {
    if items.Some? && |items.value| > 0 {
      ContentRuleIgnored(cfg, sel, Some(items.value[1..]));
    }
  }
}

=== FILE: strings.dfy ===
/** Python string operations used by the pipeline, on `seq<char>`:
    clamped slicing, `str.join`, `str.find`/`str.split(sep, 1)` and `str.rfind`. */
module Strings {
  import opened Wrappers

  /** `s[:n]` in Python: at most the first `n` characters. */
  function Take(s: string, n: nat): (r: string)
    ensures r <= s
    ensures |r| == if n <= |s| then n else |s|
  {
    if n <= |s| then s[..n] else s
  }

  /** `s[n:]` in Python: everything after the first `n` characters. */
  function Drop(s: string, n: nat): (r: string)
    ensures Take(s, n) + r == s
    ensures |r| == if n <= |s| then |s| - n else 0
  {
    if n <= |s| then s[n..] else []
  }

  // Sequence identities, stated once so that proofs about long
  // concatenations need not rediscover them.

  lemma AppendEmpty<T>(a: seq<T>)
    ensures [] + a == a
  {
  }

  lemma InitLast<T>(a: seq<T>)
    requires |a| > 0
    ensures a[..|a| - 1] + [a[|a| - 1]] == a
  {
  }

  lemma PrefixOfAppend<T>(a: seq<T>, b: seq<T>)
    ensures (a + b)[..|a|] == a
  {
  }

  lemma AppendNothing<T>(a: seq<T>)
    ensures a + [] == a
  {
  }

  lemma AppendAssoc<T>(a: seq<T>, b: seq<T>, c: seq<T>)
    ensures a + b + c == a + (b + c)
  {
  }

  /** `''.join(ss)`. */
  function Concat(ss: seq<string>): string
  {
    if |ss| == 0 then [] else ss[0] + Concat(ss[1..])
  }

  /** `sep` occurs in `s` starting at index `i`. */
  predicate OccursAt(s: string, sep: string, i: int)
  {
    0 <= i && i + |sep| <= |s| && s[i..i + |sep|] == sep
  }

  /** Python's `sep in s`. */
  predicate Contains(s: string, sep: string)
  {
    exists i :: 0 <= i <= |s| && OccursAt(s, sep, i)
  }

  lemma ContainsInMiddle(x: string, y: string, z: string)
    ensures Contains(x + y + z, y)
  {
    var s := x + y + z;
    assert s[|x|..|x| + |y|] == y;
    assert OccursAt(s, y, |x|);
  }

  /** The first index at or after `from` where `sep` occurs in `s`. */
  function Find(s: string, sep: string, from: nat): (r: Option<nat>)
    decreases |s| - from
    ensures r.Some? ==> from <= r.value && OccursAt(s, sep, r.value)
    ensures r.Some? ==> forall j :: from <= j < r.value ==> !OccursAt(s, sep, j)
    ensures r.None? ==> forall j :: from <= j ==> !OccursAt(s, sep, j)
  {
    if from + |sep| > |s| then None
    else if s[from..from + |sep|] == sep then Some(from)
    else Find(s, sep, from + 1)
  }

  /** `s.split(sep, 1)` unpacked into two names: the text before the first
      occurrence of `sep` and the text after it. Python raises when `sep` is
      empty and the unpacking raises when `sep` does not occur; both are None. */
  function SplitOnce(s: string, sep: string): (r: Option<(string, string)>)
    ensures r.Some? ==> r.value.0 + sep + r.value.1 == s
    ensures r.Some? ==> !Contains(r.value.0, sep)
    ensures r.None? <==> |sep| == 0 || !Contains(s, sep)
  {
    if |sep| == 0 then None
    else match Find(s, sep, 0)
      case None => None
      case Some(i) =>
        var before, after := s[..i], s[i + |sep|..];
        assert before + sep + after == s by {
          assert s == s[..i] + s[i..i + |sep|] + s[i + |sep|..];
        }
        assert !Contains(before, sep) by {
          forall j | OccursAt(before, sep, j)
            ensures false
          {
            assert before[j..j + |sep|] == s[j..j + |sep|];
            assert OccursAt(s, sep, j);
          }
        }
        Some((before, after))
  }

  /** `s.rfind(c, 0, end)`: the last index below `end` holding `c`, or -1. */
  function RFind(s: string, c: char, end: nat): (r: int)
    ensures -1 <= r < |s| && r < end
    ensures r >= 0 ==> s[r] == c
    ensures forall j :: r < j < end && j < |s| ==> s[j] != c
  {
    if end == 0 then -1
    else if end - 1 < |s| && s[end - 1] == c then end - 1
    else RFind(s, c, end - 1)
  }

  /** When the text before `sep` cannot start an occurrence of it, the split
      lands exactly there. */
  lemma SplitOnceAt(x: string, sep: string, y: string)
    requires |sep| > 0
    requires forall i :: 0 <= i < |x| ==> x[i] != sep[0]
    ensures SplitOnce(x + sep + y, sep) == Some((x, y))
  {
    var s := x + sep + y;
    assert OccursAt(s, sep, |x|) by {
      assert s[|x|..|x| + |sep|] == sep;
    }
    forall i | 0 <= i < |x|
      ensures !OccursAt(s, sep, i)
    {
      assert s[i] == x[i];
      assert s[i..i + |sep|][0] == s[i];
    }
    var j := Find(s, sep, 0).value;
    assert j == |x|;
    assert s[..j] == x;
    assert s[j + |sep|..] == y;
  }
}

=== FILE: summarizer.dfy ===
/** `summarize` (main.py:206-228) over the purged content tree. The overflow
    plus the read-more suffix is counted in characters of markup; the
    descendants are visited last first (children before their parent,
    later siblings before earlier ones): a text leaf longer than what is
    still to remove is cut and ends the walk, anything else is replaced by
    an empty string and its markup counted as removed. The suffix is then
    appended. Tags are never cut, so the markup stays balanced, and
    summarising purged content leaves it purged. */
module Summarizer {
  import opened Strings
  import opened Html
  import opened Sanitizer

  /** Cut a leaf that is longer than the `need` characters still to remove.
      `s.rfind(' ', 0, end)` picks the cut; with no space it drops exactly
      `need` characters (main.py:214-220). As written the search window is
      `s[:need]`; the evidently intended window ends at the cut point. */
  function CutLeaf(s: string, need: nat, asWritten: bool): (r: string)
    requires 0 < need < |s|
    ensures r <= s && |r| < |s|
    ensures |r| == |s| - need || s[|r|] == ' '
    ensures !asWritten ==> |r| <= |s| - need
  {
    var w := if asWritten then RFind(s, ' ', need) else RFind(s, ' ', |s| - need + 1);
    if w == -1 then s[..|s| - need] else s[..w]
  }

  /** The intended cut removes at least `need` characters and stops at the
      last space that does so; only when there is none does it cut inside a word. */
  lemma CutAtWordBoundary(s: string, need: nat)
    requires 0 < need < |s|
    ensures |CutLeaf(s, need, false)| <= |s| - need
    ensures var r := CutLeaf(s, need, false);
      || (|r| < |s| && s[|r|] == ' ' && forall j :: |r| < j <= |s| - need ==> s[j] != ' ')
      || (|r| == |s| - need && forall j :: 0 <= j <= |s| - need ==> s[j] != ' ')
  {
  }

  /** `p` is what the walk can leave of `n`: the empty string in its place,
      a prefix of its text, or the same element (name and attributes) over
      what the walk left of each of its children. */
  predicate PrunedNode(p: Node, n: Node)
    decreases n
  {
    || p == Text("")
    || (n.Text? && p.Text? && p.text <= n.text)
    || (n.Element? && p.Element? && p.name == n.name && p.attrs == n.attrs && PrunedForest(p.children, n.children))
  }

  predicate PrunedForest(ps: seq<Node>, ns: seq<Node>)
    decreases ns
  {
    |ps| == |ns| && forall i :: 0 <= i < |ns| ==> PrunedNode(ps[i], ns[i])
  }

  lemma {:induction false} PrunedNodeRefl(n: Node)
    ensures PrunedNode(n, n)
    decreases n
  {
    if n.Element? {
      PrunedForestRefl(n.children);
    }
  }

  lemma {:induction false} PrunedForestRefl(ns: seq<Node>)
    ensures PrunedForest(ns, ns)
    decreases ns
  {
    forall i | 0 <= i < |ns|
      ensures PrunedNode(ns[i], ns[i])
    {
      PrunedNodeRefl(ns[i]);
    }
  }

  lemma PrunedSnoc(ps: seq<Node>, ns: seq<Node>, p: Node, n: Node)
    requires PrunedForest(ps, ns) && PrunedNode(p, n)
    ensures PrunedForest(ps + [p], ns + [n])
  {
    var a, b := ps + [p], ns + [n];
    forall i | 0 <= i < |b|
      ensures PrunedNode(a[i], b[i])
    {
      if i < |ns| {
        assert a[i] == ps[i] && b[i] == ns[i];
      }
    }
  }

  /** The walk over one node with `need` characters still to remove: what is
      left of it and the count it adds to `removed`. The walk ends inside
      the node exactly when the count reaches `need`; otherwise the node is
      gone and the count is its whole markup. The intended cut removes at
      least what it counts. */
  function TrimNode(n: Node, need: nat, asWritten: bool): (r: (Node, nat))
    requires need > 0
    decreases n
    ensures PrunedNode(r.0, n)
    ensures TextOf(r.0) <= TextOf(n)
    ensures r.1 < need ==> r.0 == Text("") && r.1 == |Serialize(n)|
    ensures !asWritten && r.1 >= need ==> |Serialize(r.0)| + need <= |Serialize(n)|
  {
    match n
    case Text(s) =>
      if |s| > need then
        CutAtWordBoundary(s, need);
        (Text(CutLeaf(s, need, asWritten)), need)
      else (Text(""), |s|)
    case Element(name, attrs, kids) =>
      var t := TrimForest(kids, need, asWritten);
      ShellLength(name, attrs, t.0, kids);
      if t.1 >= need then (Element(name, attrs, t.0), t.1)
      else (Text(""), t.1 + |Serialize(Element(name, attrs, t.0))|)
  }

  /** The walk over a forest, last node first (main.py:212-226). */
  function TrimForest(ns: seq<Node>, need: nat, asWritten: bool): (r: (seq<Node>, nat))
    requires need > 0
    decreases ns
    ensures PrunedForest(r.0, ns)
    ensures TextOfForest(r.0) <= TextOfForest(ns)
    ensures r.1 < need ==> SerializeForest(r.0) == "" && TextOfForest(r.0) == "" && r.1 == |SerializeForest(ns)|
    ensures !asWritten && r.1 >= need ==> |SerializeForest(r.0)| + need <= |SerializeForest(ns)|
  {
    if |ns| == 0 then ([], 0)
    else
      var init, last := ns[..|ns| - 1], ns[|ns| - 1];
      InitLast(ns);
      var t := TrimNode(last, need, asWritten);
      if t.1 >= need then
        TrimStopsAtLast(init, last, t.0, need, asWritten);
        (init + [t.0], t.1)
      else
        var u := TrimForest(init, need - t.1, asWritten);
        TrimPassesLast(init, last, t.0, t.1, u.0, u.1, need, asWritten);
        (u.0 + [t.0], t.1 + u.1)
  }

  /** The walk ends inside the last node: the nodes before it stay. */
  lemma TrimStopsAtLast(init: seq<Node>, last: Node, p: Node, need: nat, asWritten: bool)
    requires PrunedNode(p, last) && TextOf(p) <= TextOf(last)
    requires !asWritten ==> |Serialize(p)| + need <= |Serialize(last)|
    ensures PrunedForest(init + [p], init + [last])
    ensures TextOfForest(init + [p]) <= TextOfForest(init + [last])
    ensures !asWritten ==> |SerializeForest(init + [p])| + need <= |SerializeForest(init + [last])|
  {
    ForestSnoc(init, last);
    ForestSnoc(init, p);
    PrunedForestRefl(init);
    PrunedSnoc(init, init, p, last);
  }

  /** The last node is removed whole (`k` is its markup) and the walk goes
      on before it, leaving `q` and counting `j`. */
  lemma TrimPassesLast(init: seq<Node>, last: Node, p: Node, k: nat, q: seq<Node>, j: nat, need: nat, asWritten: bool)
    requires p == Text("") && k == |Serialize(last)| && k < need
    requires PrunedForest(q, init) && TextOfForest(q) <= TextOfForest(init)
    requires j < need - k ==> SerializeForest(q) == "" && TextOfForest(q) == "" && j == |SerializeForest(init)|
    requires !asWritten && j >= need - k ==> |SerializeForest(q)| + (need - k) <= |SerializeForest(init)|
    ensures PrunedForest(q + [p], init + [last])
    ensures TextOfForest(q + [p]) <= TextOfForest(init + [last])
    ensures k + j < need ==> SerializeForest(q + [p]) == "" && TextOfForest(q + [p]) == "" && k + j == |SerializeForest(init + [last])|
    ensures !asWritten && k + j >= need ==> |SerializeForest(q + [p])| + need <= |SerializeForest(init + [last])|
  {
    ForestSnoc(init, last);
    ForestSnoc(q, p);
    PrunedSnoc(q, init, p, last);
  }

  /** What is left of the content before the suffix is appended: all of it
      when it fits, otherwise what the walk leaves. The text left is a
      prefix of the text, and the intended walk brings the markup plus the
      suffix within `length` whenever the suffix itself fits. */
  function SummaryForest(ns: seq<Node>, length: nat, readMore: string, asWritten: bool): (p: seq<Node>)
    ensures PrunedForest(p, ns)
    ensures TextOfForest(p) <= TextOfForest(ns)
    ensures |SerializeForest(ns)| <= length ==> p == ns
    ensures !asWritten && |SerializeForest(ns)| > length && |readMore| <= length ==>
      |SerializeForest(p)| + |readMore| <= length
  {
    var total := |SerializeForest(ns)|;
    if total > length then TrimForest(ns, |readMore| + total - length, asWritten).0
    else
      PrunedForestRefl(ns);
      ns
  }

  /** The summary ends with the suffix after the markup of what the walk
      left; short content only gains the suffix, and long content is brought
      within `length` whenever the suffix itself fits. */
  function Summarize(ns: seq<Node>, length: nat, readMore: string): (r: string)
    ensures |r| >= |readMore| && r[|r| - |readMore|..] == readMore
    ensures r[..|r| - |readMore|] == SerializeForest(SummaryForest(ns, length, readMore, false))
    ensures |SerializeForest(ns)| <= length ==> r == SerializeForest(ns) + readMore
    ensures |SerializeForest(ns)| > length && |readMore| <= length ==> |r| <= length
  {
    var r := SerializeForest(SummaryForest(ns, length, readMore, false)) + readMore;
    assert r[..|r| - |readMore|] + readMore == r;
    r
  }

  /** The source as written keeps the suffix and the pruning but not the bound. */
  function SummarizeAsWritten(ns: seq<Node>, length: nat, readMore: string): (r: string)
    ensures |r| >= |readMore| && r[|r| - |readMore|..] == readMore
    ensures r[..|r| - |readMore|] == SerializeForest(SummaryForest(ns, length, readMore, true))
    ensures |SerializeForest(ns)| <= length ==> r == SerializeForest(ns) + readMore
  {
    var r := SerializeForest(SummaryForest(ns, length, readMore, true)) + readMore;
    assert r[..|r| - |readMore|] + readMore == r;
    r
  }

  /** The walk over a content of one text leaf that is longer than `need`. */
  lemma TrimOneLeaf(s: string, need: nat, asWritten: bool)
    requires 0 < need < |s|
    ensures TrimForest([Text(s)], need, asWritten) == ([Text(CutLeaf(s, need, asWritten))], need)
  {
    assert [Text(s)][..0] == [];
    AppendEmpty([Text(CutLeaf(s, need, asWritten))]);
  }

  /** Searching `s[:need]` keeps `abcd` of `abcd efgh` when seven characters
      must go: the summary is longer than the limit. */
  lemma SummarizeAsWrittenOverflows()
    ensures SummarizeAsWritten([Text("abcd efgh")], 3, ".") == "abcd."
    ensures Summarize([Text("abcd efgh")], 3, ".") == "ab."
  {
    var s := "abcd efgh";
    assert SerializeForest([Text(s)]) == s;
    assert RFind(s, ' ', 7) == 4 by {
      assert s[6] != ' ' && s[5] != ' ' && s[4] == ' ';
    }
    assert RFind(s, ' ', 3) == -1 by {
      assert s[2] != ' ' && s[1] != ' ' && s[0] != ' ';
    }
    assert CutLeaf(s, 7, true) == "abcd";
    assert CutLeaf(s, 7, false) == "ab";
    TrimOneLeaf(s, 7, true);
    TrimOneLeaf(s, 7, false);
    assert SerializeForest([Text("abcd")]) == "abcd";
    assert SerializeForest([Text("ab")]) == "ab";
  }

  /** Searching `s[:need]` also cuts far more than needed: `one two three`
      loses `two` although `one two` plus the suffix fits in ten characters. */
  lemma SummarizeAsWrittenOvercuts()
    ensures SummarizeAsWritten([Text("one two three")], 10, "~") == "one~"
    ensures Summarize([Text("one two three")], 10, "~") == "one two~"
  {
    var s := "one two three";
    assert |s| == 13 && s[3] == ' ';
    assert SerializeForest([Text(s)]) == s;
    assert RFind(s, ' ', 4) == 3;
    assert RFind(s, ' ', 10) == 7 by {
      assert s[9] != ' ' && s[8] != ' ' && s[7] == ' ';
    }
    assert CutLeaf(s, 4, true) == "one";
    assert CutLeaf(s, 4, false) == "one two";
    TrimOneLeaf(s, 4, true);
    TrimOneLeaf(s, 4, false);
    assert SerializeForest([Text("one")]) == "one";
    assert SerializeForest([Text("one two")]) == "one two";
  }

  /** The markup of a `<b>` element around one text leaf. */
  lemma SerializeBold(x: string)
    ensures SerializeForest([Element("b", [], [Text(x)])]) == "<b>" + x + "</b>"
  {
    var n := Element("b", [], [Text(x)]);
    assert SerializeAttrs([]) == "";
    assert SerializeForest([Text(x)]) == x + SerializeForest([]);
    assert SerializeForest([n]) == Serialize(n) + SerializeForest([]);
  }

  /** Tags survive the walk whole: `<b>` around 4100 characters, cut to a
      budget of 4096, keeps both its tags and 4089 characters inside them. */
  lemma SummaryKeepsTags(body: string)
    requires |body| == 4100 && forall i :: 0 <= i < |body| ==> body[i] != ' '
    ensures Summarize([Element("b", [], [Text(body)])], 4096, "") == "<b>" + body[..4089] + "</b>"
  {
    var ns := [Element("b", [], [Text(body)])];
    SerializeBold(body);
    assert RFind(body, ' ', 4090) == -1;
    assert CutLeaf(body, 11, false) == body[..4089];
    TrimOneLeaf(body, 11, false);
    var kept := Element("b", [], [Text(body[..4089])]);
    assert TrimNode(ns[0], 11, false) == (kept, 11);
    assert ns[..0] == [];
    AppendEmpty([kept]);
    assert TrimForest(ns, 11, false) == ([kept], 11);
    SerializeBold(body[..4089]);
  }

  /** Whatever the summary walk leaves of a tree that passes the walk
      passes it too: cutting text and dropping nodes adds no tag or attribute. */
  lemma {:induction false} PrunedNodeStaysOk(p: Node, n: Node)
    requires PrunedNode(p, n) && NodeOk(n)
    ensures NodeOk(p)
    decreases n
  {
    if p.Element? {
      assert n.Element?;
      PrunedForestStaysOk(p.children, n.children);
    }
  }

  lemma {:induction false} PrunedForestStaysOk(ps: seq<Node>, ns: seq<Node>)
    requires PrunedForest(ps, ns) && ForestOk(ns)
    ensures ForestOk(ps)
    decreases ns
  {
    forall i | 0 <= i < |ps|
      ensures NodeOk(ps[i])
    {
      PrunedNodeStaysOk(ps[i], ns[i]);
    }
  }
}

=== FILE: wrappers.dfy ===
/** Optional values, standing for Python's `None` and for the source's
    "this step raised, the item is dropped" outcomes. */
module Wrappers {

  datatype Option<+T> = None | Some(value: T)
}
